=== FILE: README.md ===
# Task manager core, modelled in Dafny

This project models the core of a browser-only task manager for students.

- **Repositories.** Three local-storage repositories: tasks, categories and settings. Each reads a whole collection from one `localStorage` key, changes it in memory and writes it back.
- **Offline worker.** The service worker's install, activate and fetch-routing policy, and its push and notification-click handlers.
- **List logic in the views.** The pure list logic inside the views:
  - the task list's filter, sort and limit pipeline and its checkbox update;
  - the calendar's day buckets and dot indicator;
  - the reports page's completion rate and per-category counts;
  - the new-task form's guard and the record it builds;
  - the categories page's list updates.
- **Navigation.** The "active entry" predicates of the sidebar and the mobile bar.

## How the model is built

Everything is an immutable datatype, and every operation is a pure function.

- **Storage.** `LocalStore.Store` has one optional field per key: `tasks`, `categories` and `settings`.
  - A `browser` flag is false when the code runs without a `window` (server rendering). There, a write to `localStorage` throws. A write that fails inside a browser is not represented (see Left out).
  - Every repository call that writes, or may write, returns `Outcome`: either `Ok(value, store)` or `Threw(store)`. A throw leaves the store as it was. The two task reads, `getTasks` and `getTask`, never write and return their value directly.
  - Values are kept already decoded, so writing JSON and reading it back gives the same records.
- **Parameters.** Generated uuids, the clock (`now`) and the network are parameters. Where a property needs a fresh id, freshness is a precondition of that lemma only. The operations never check it, and neither does the code.
- **Time.** Due dates are integer timestamps in local wall-clock milliseconds. The local day of `t` is `t / 86400000`.
- **Cache Storage.** This is a list of named caches in creation order: the order in which `caches.keys()` lists them and `caches.match` searches them.
  - Each cache maps a request URL to a response.
  - The network is a map from URL to the response a fetch resolves with. A URL missing from the map is a fetch that rejects.
- **The two calendar views** carry the same code. It is defined once, in `TaskCalendar`.
- **The priority badge** is shared by the three views that show it. It is defined once, as `TaskType.PriorityBadge`.

In these places the model follows what the code does rather than what its comments or the UI suggest:

- A task's `recurrence` is an unconstrained string, not an enum.
- A non-empty title is enforced by the new-task and edit forms, never by the repository.
- Unique ids are never checked. The lemmas that need them assume them.
- The asset branch returns the network response without waiting for the cache write. The model records the write as done.
- "Same-origin" is the response type `"basic"`.

## Model

| member | source | states |
|---|---|---|
| TaskType.ParsePriority | types/task.ts:9 | a stored priority string is a priority exactly when it is "high", "medium" or "low", and parsing gives back the name |
| TaskType.PriorityRoundTrip | types/task.ts:9 | each enum value survives being written as its name and read back |
| TaskType.WithId | lib/task-service.ts:26-29 | `{ id, ...data }` has the generated id and exactly the given fields |
| TaskType.MergeFields | lib/task-service.ts:43 | after `{ ...old, ...patch }`, every key present in the patch takes the patch's value and every other field keeps the old one, the id included |
| TaskType.MergeLaws | lib/task-service.ts:37-43 | the empty patch changes nothing, applying a patch twice equals applying it once, and a patch without `id` keeps the id |
| TaskType.SameDayMeansSameMidnight | components/task-list.tsx:26-31 | two timestamps are on the same day exactly when the second lies in the first's midnight-to-midnight interval |
| TaskType.PriorityBadge | components/task-list.tsx:89-98 | no badge exactly when the priority is missing or empty; destructive exactly for "high", default exactly for "medium", outline for every other string |
| TaskType.BadgeOfEnum | app/calendar/page.tsx:119-127 | on the three enum values the badge is destructive, default and outline |
| TaskService.GetTasks | lib/task-service.ts:9-16 | empty outside a browser or when the key was never written; otherwise the stored list |
| TaskService.FindIndex | lib/task-service.ts:39 | the first position holding the id, or none exactly when no task has it |
| TaskService.GetTask | lib/task-service.ts:18-21 | null exactly when no stored task has the id; otherwise the first task with it |
| TaskService.CreateTask | lib/task-service.ts:23-35 | throws exactly when there is no window, and then writes nothing; otherwise the stored list becomes the old list plus one task at the end, with the new id and the given fields; no other key changes |
| TaskService.UpdateTask | lib/task-service.ts:37-49 | an absent id gives null and no write; otherwise only the first task with the id is replaced by the merge, and the returned record is the stored one |
| TaskService.DeleteTask | lib/task-service.ts:51-58 | returns true; the stored list keeps exactly the tasks without the id; throws when there is no window |
| TaskService.CreateThenGet | lib/task-service.ts:18-35 | with a fresh id, reading the new id back gives the record built from the input |
| TaskService.CreateKeepsIdsUnique | lib/task-service.ts:23-35 | a fresh id keeps the stored ids unique |
| TaskService.UpdateReadsBack | lib/task-service.ts:37-49 | after an update that keeps the id, reading the id back gives the returned record |
| TaskService.UpdateThenGet | lib/task-service.ts:37-49 | after an update that keeps the id, reading it back gives the returned record, and every other id reads as before, whether or not ids are unique |
| TaskService.UpdateFrame | lib/task-service.ts:37-49 | an update that keeps the id leaves the list length alone, reads the id back as the returned record, and every other id reads as before |
| TaskService.DeleteIdempotent | lib/task-service.ts:51-58 | deleting twice stores what deleting once stores, and afterwards the id is not found, on every store |
| TaskService.DeleteKeepsOrder | lib/task-service.ts:53 | the survivors keep their stored order |
| CategoryService.DefaultCategories | lib/category-service.ts:20-25 | four categories: Math #ef4444, Science #3b82f6, Literature #10b981, History #f59e0b, with the generated ids |
| CategoryService.GetCategories | lib/category-service.ts:14-32 | outside a browser: empty, no write. Key never written: the defaults, persisted. Otherwise: the stored list, unchanged |
| CategoryService.CreateCategory | lib/category-service.ts:34-46 | appends the new category to the list read (seeding first if needed) and returns it; throws when there is no window |
| CategoryService.DeleteCategory | lib/category-service.ts:48-55 | returns true; the stored list keeps exactly the categories without the id |
| CategoryService.DeleteKeepsOrder | lib/category-service.ts:48-55 | the surviving categories keep the order they had in the list read |
| CategoryService.SeedOnce | lib/category-service.ts:17-31 | the first read persists four categories, and later reads return them unchanged whatever ids the generator would produce |
| CategoryService.CreateOnFreshStore | lib/category-service.ts:34-45 | on a never-seeded store the result is the four defaults followed by the new category |
| CategoryService.DeleteIdempotent | lib/category-service.ts:48-55 | deleting twice stores what deleting once stores, on every store |
| CategoryService.DeletingAllDoesNotReseed | lib/category-service.ts:17-55 | once every category is deleted the key holds an empty list, and later reads return it without seeding again |
| CategoryService.DuplicateNamesAccepted | lib/category-service.ts:34-45 | creating the same name twice stores two categories with that name |
| SettingsService.GetSettings | lib/settings-service.ts:15-43 | outside a browser: the defaults, no write. Key never written: the defaults, persisted. Otherwise: the stored record |
| SettingsService.SaveSettings | lib/settings-service.ts:45-48 | replaces the stored record and returns it; throws when there is no window |
| SettingsService.SaveThenGet | lib/settings-service.ts:42-47 | reading after saving gives the saved record and writes nothing |
| SettingsService.SecondGetAfterSeeding | lib/settings-service.ts:27-42 | the read after seeding returns the seeded record unchanged |
| SettingsService.DefaultsAgree | lib/settings-service.ts:16-36 | both default branches produce the same record |
| TaskList.InsertByDue | components/task-list.tsx:40 | inserting into a due-ordered list keeps it due-ordered and adds exactly the one task |
| TaskList.SortByDue | components/task-list.tsx:40 | the result is in non-decreasing due order and is a permutation of the input |
| TaskList.SortStable | components/task-list.tsx:40 | tasks with equal due times keep their stored relative order |
| TaskList.ApplyFilter | components/task-list.tsx:23-37 | "today", "pending" and "completed" keep exactly the tasks due today, not completed, or completed; any other value keeps every task |
| TaskList.ApplyFilterKeepsOrder | components/task-list.tsx:23-37 | each filter decides task by task: filtering two parts of the list one after the other gives the filtered whole, so the kept tasks stay in stored order and each appears as often as it was stored |
| TaskList.SliceTo | components/task-list.tsx:43 | `slice(0, n)` is a prefix of length min(n, length), counted back from the end for negative n |
| TaskList.LoadTasks | components/task-list.tsx:21-46 | the shown list is a prefix of the filtered tasks in due order: all of them without a truthy limit, and min(limit, count) of them with a positive one |
| TaskList.ApplyLimit | components/task-list.tsx:42-44 | a missing or zero limit keeps everything; a positive limit keeps the first min(limit, length) tasks |
| TaskList.LoadTasksShape | components/task-list.tsx:21-46 | the list shown is due-ordered, drawn from the stored tasks, satisfies the filter, and is at most `limit` long; without a limit it is all the filtered tasks |
| TaskList.SetCompleted | components/task-list.tsx:54 | tasks with the id get the new completion flag; every other task is unchanged |
| TaskList.HandleTaskComplete | components/task-list.tsx:52-55 | only the tasks key changes; an unknown id leaves the store as it was, and a known id reads back as the old task with the new flag; every other id reads as before and the stored list keeps its length; on screen, every task with the id gets the flag and the rest stay as they were, in the same positions |
| TaskList.ToggleAgreesWithStore | components/task-list.tsx:52-55 | with unique ids, when the screen shows the whole stored list in stored order, the stored list after a toggle equals the screen's updated list |
| TaskList.ToggleShownAgrees | components/task-list.tsx:21-55 | with unique ids, for any shown list drawn from the store (filtered, sorted, limited), every task on screen after a toggle is what the store returns for its id |
| TaskList.SetCompletedIdempotent | components/task-list.tsx:54 | toggling twice to the same value is toggling once |
| TaskCalendar.DayTasks | components/task-calendar.tsx:30-32 | exactly the tasks due on the given day |
| TaskCalendar.DayBuckets | components/task-calendar.tsx:30-32 | a task is in its own day's bucket and in no other day's, and buckets keep the stored order |
| TaskCalendar.SelectedDayTasks | components/task-calendar.tsx:21-24 | with a date, exactly the stored tasks due that day; without one, the previous list, not recomputed |
| TaskCalendar.DotColor | components/task-calendar.tsx:56 | the category colour, or "#888" when it is missing or empty |
| TaskCalendar.Indicator | components/task-calendar.tsx:48-65 | no dots for no tasks, one coloured dot per task for one to three, exactly three grey dots for more |
| CalendarPage.EmptyStateIffNoTasksThatDay | app/calendar/page.tsx:99 | with a date selected, the empty state shows exactly when no stored task is due that day |
| CalendarPage.IndicatorColours | app/calendar/page.tsx:64-81 | a day with tasks shows a dot, and every coloured dot carries a task's colour or the grey fallback |
| Reports.CompletedCount | app/reports/page.tsx:36 | the number of completed tasks, as counted one task at a time; at most the total, and equal to it exactly when every task is completed |
| Reports.FilterCountsDone | app/reports/page.tsx:36 | the filter on `completed` keeps exactly as many tasks as the independent count finds |
| Reports.CompletionRate | app/reports/page.tsx:38 | 0 with no tasks; otherwise the percentage rounded to the nearest integer, halves up; between 0 and 100, and 100 when all are done |
| Reports.CompletionSummary | app/reports/page.tsx:36-38 | the completed count, the number of tasks, and the rounded rate of the two; the rate is at most 100, 0 with no tasks and 100 when all are done |
| Reports.CategoryNamesDistinct | app/reports/page.tsx:41-52 | no category name is listed twice |
| Reports.CategoryNamesMembers | app/reports/page.tsx:41-52 | a name is listed exactly when some task has that non-empty category |
| Reports.CategoryNamesPrefix | app/reports/page.tsx:41-52 | names keep their order of first appearance as tasks are added |
| Reports.CountInIsFilter | app/reports/page.tsx:44-48 | a category's count is the number of tasks in that category |
| Reports.Step | app/reports/page.tsx:41-53 | a task without a category leaves the slices alone; otherwise the slices keep their names, gain at most one slice, and their sum grows by one |
| Reports.StepTallies | app/reports/page.tsx:42-50 | one step of the reduce keeps the chart data exact: skip, increment the first slice with the name, or append a slice of one |
| Reports.CategoryData | app/reports/page.tsx:41-52 | one slice per distinct non-empty category, in order of first appearance, each counting its tasks (so each at least 1), summing to the number of tasks with a category |
| NewTaskPage.SelectedCategory | app/tasks/new/page.tsx:47 | the first category with the selected id, or none when no category has it |
| NewTaskPage.NewTaskData | app/tasks/new/page.tsx:49-59 | not completed, no attachments, typed fields as entered, and the selected category's name and colour, or "" when the selection matches nothing |
| NewTaskPage.HandleSubmit | app/tasks/new/page.tsx:40-68 | an empty title or missing due date changes nothing; otherwise the task is created, isSubmitting ends false, and only success navigates |
| NewTaskPage.EmptyPriorityNotWellTyped | app/tasks/new/page.tsx:54 | an unselected priority stores "", which is outside the declared enum |
| NewTaskPage.SubmittedTaskReadsBack | app/tasks/new/page.tsx:49-59 | with a fresh id the created task reads back under that id, uncompleted |
| CategoriesPage.HandleCreate | app/categories/page.tsx:31-46 | an empty name changes nothing; success appends to the shown list and resets the inputs to "" and #6366f1; failure changes nothing on the page |
| CategoriesPage.HandleDelete | app/categories/page.tsx:48-55 | the shown list keeps exactly the entries without the id, and the inputs stay |
| CategoriesPage.LoadIsInSync | app/categories/page.tsx:22-29 | after the mount read the shown list equals the stored one |
| CategoriesPage.CreateKeepsInSync | app/categories/page.tsx:31-46 | a create keeps the shown list equal to the stored one |
| CategoriesPage.DeleteKeepsInSync | app/categories/page.tsx:48-55 | a delete keeps the shown list equal to the stored one |
| CategoriesPage.DeleteKeepsOrder | app/categories/page.tsx:51 | the remaining entries keep their order |
| ServiceWorker.Open | app/service-worker.ts:17 | the named cache exists afterwards, created empty at the end only when missing; no lookup changes |
| ServiceWorker.Lookup | app/service-worker.ts:77 | `cache.match` finds the entry of the named cache only |
| ServiceWorker.CachesMatch | app/service-worker.ts:95 | `caches.match` gives the entry from the first cache, in creation order, that holds the URL; none exactly when no cache does |
| ServiceWorker.Put | app/service-worker.ts:111-113 | the named cache then maps the URL to the response; every other lookup is as after opening |
| ServiceWorker.Install | app/service-worker.ts:14-35 | the install succeeds exactly when all nine URLs fetch with an acceptable status, and then stores each one's response in "task-manager-cache-v1"; a failure still leaves the cache opened |
| ServiceWorker.InstallIdempotent | app/service-worker.ts:17-29 | installing again over the same network changes nothing |
| ServiceWorker.Activate | app/service-worker.ts:47-50 | keeps exactly the caches named "task-manager-cache-v1" |
| ServiceWorker.ActivateKeepsCurrent | app/service-worker.ts:47-50 | with unique names, only the current cache survives, if it existed |
| ServiceWorker.ActivateThenMatch | app/service-worker.ts:47-50 | after activation `caches.match` agrees with the current cache, which keeps its entries |
| ServiceWorker.NavigateFallback | app/service-worker.ts:74-84 | the current cache's entry for the URL, else its offline page (possibly absent); the current cache is created if missing |
| ServiceWorker.Navigate | app/service-worker.ts:61-87 | a preload response is returned without fetching; otherwise the network response; on a rejection, the fallback; no cached entry changes |
| ServiceWorker.Asset | app/service-worker.ts:88-118 | a cache hit is returned without fetching; on a miss the network response is returned, and stored exactly when it is a 200 of type "basic" |
| ServiceWorker.Other | app/service-worker.ts:119-126 | the network response, else the cache match (possibly none); never writes |
| ServiceWorker.HandleFetch | app/service-worker.ts:59-127 | navigations, then image/style/script assets, then everything else |
| ServiceWorker.AssetCachedOnce | app/service-worker.ts:95-115 | a stored asset is served from the cache the next time, without a fetch |
| ServiceWorker.OfflineAfterInstall | app/service-worker.ts:14-84 | after a clean install and activation, an offline navigation gets the precached page, or the precached offline page for an uncached URL |
| ServiceWorker.PushNotification | app/service-worker.ts:130-143 | data that is not JSON shows no notification; otherwise title, body and url default to "New Notification", "You have a new task reminder" and "/" when missing or empty; icon and badge are the 192px icon |
| ServiceWorker.NotificationNeverBlank | app/service-worker.ts:131-139 | a notification that is shown never has an empty title, body or url |
| ServiceWorker.NotificationClick | app/service-worker.ts:146-163 | focus the first window on the target URL; otherwise open one when possible; nothing exactly when neither applies |
| ServiceWorker.ClickOpensPushTarget | app/service-worker.ts:138-159 | with no window on it, a click on a shown push notification opens the push's url, or "/" |
| Sidebar.Active | components/layout/sidebar.tsx:23-53 | an entry is active only on a pathname its link is a prefix of |
| Sidebar.AtMostOneActive | components/layout/sidebar.tsx:18-55 | no two entries are active on one pathname |
| Sidebar.OwnPage | components/layout/sidebar.tsx:18-55 | each entry is active on its own page and no other entry is |
| Sidebar.TasksPrefix | components/layout/sidebar.tsx:29 | Tasks is active below "/tasks/", "/tasks/new" included, and "/tasksX" activates nothing |
| MobileNav.Active | components/mobile-nav.tsx:14-38 | an entry is active only on a pathname its link is a prefix of |
| MobileNav.AtMostOneActive | components/mobile-nav.tsx:9-40 | no two entries are active on one pathname |
| MobileNav.OwnPage | components/mobile-nav.tsx:9-40 | each entry is active on its own page and no other entry is, even on the new-task page, which the sidebar counts as part of Tasks |
| MobileNav.NewTaskPageOwnsNew | components/mobile-nav.tsx:20-26 | "/tasks/new" activates New and not Tasks; any other page below "/tasks/" activates Tasks |
| MobileNav.NoEntryPages | components/mobile-nav.tsx:9-40 | "/categories" and "/reports" activate nothing |
| MobileNav.BarsAgree | components/mobile-nav.tsx:14-38 | away from "/tasks/new", Home, Tasks, Calendar and Settings are active exactly where the sidebar's entries are |

## Left out

- Rendering, styling, React hooks and effects, router calls and the recharts charts are not modelled. The model keeps only the list and predicate logic the views compute.
- `localStorage` is modelled with typed values, and JSON encoding is a perfect round trip. So a key holding an empty string, or a value of the wrong shape, is not represented.
- uuid generation is not modelled: ids are parameters.
- Write failures inside a browser are not modelled: a full quota or disabled storage makes `localStorage.setItem` throw there too. `Threw` stands only for the case with no window. So the `catch` branches of the new-task and categories pages are reached in the model only through that case.
- Date parsing, time zones, daylight-saving changes and invalid dates (NaN in the sort comparator) are left out. Timestamps are local wall-clock integers.
- Reports.CompletionRate: rounds the exact rational `100 * completed / total`, halves up. The source divides in floating point before rounding, so on an exact half the displayed rate can be one lower than the model's. For 23 of 40 tasks the source computes `Math.round(57.49999999999999)`, which is 57; the model gives 58.
- The percent label of the pie chart is left out: floating point and presentation.
- The hard-coded weekly, priority and deadline cards of the reports page and the dashboard counts are left out: they are constants.
- The Promise sequencing of the service worker is left out. That covers `navigationPreload.enable`, `skipWaiting`, `clients.claim` and `notification.close`.
- ServiceWorker.Asset: the cache write is modelled as finished when the response is returned. The code does not wait for it, so a second request racing the write may still miss.
- Cache matching is by URL alone. Request method, `Vary` headers and query-string options are left out.
- A comment in the fetch handler says cross-origin requests are skipped, but the code does no such check. Nothing is modelled for it.
- Concurrency is not modelled: two tabs writing the same key can race, and the code does nothing to coordinate them.
- `updateTask` with a patch key that is present but `undefined` on a required field (for example `title: undefined`) is not modelled. On optional fields, a present-but-undefined key is modelled, and clears the field.
- A runtime `id` key inside the data given to `createTask` is not modelled. The type excludes it; if one slipped through, the spread comes after the generated id and would replace it.
- The task detail and edit page is left out as a caller of `getTask` and `updateTask`. Its own logic is not modelled: the title and due-date guard (the same as the new-task form's), the redirect when the task is absent, and the mapping of the stored category name back to an id by the first name match.
- The settings page, the task list page (`app/tasks/page.tsx`), the dashboard, the layout, the manifest, the offline page and the task summary are left out. They only forward values to the repositories or render static content.

=== FILE: calendar.dfy ===
/**
  The calendar views: bucketing tasks by day and the dot indicator under each
  day. The calendar component and the calendar page carry the same code; it
  is defined once here, in `TaskCalendar`, and `CalendarPage` adds what only
  the page has.
 */
module TaskCalendar {
  import opened Common
  import opened TaskType

  /** The filter callback `isSameDay(new Date(task.dueDate), day)`. */
  function DueSameDay(day: int): Task -> bool {
    (t: Task) => SameDay(t.dueDate, day)
  }

  /** `getDayTasks(day)`: the tasks due on the day of `day`, in stored order. */
  function DayTasks(tasks: seq<Task>, day: int): (r: seq<Task>)
    ensures forall t :: t in r <==> t in tasks && SameDay(t.dueDate, day)
    ensures |r| <= |tasks|
  {
    Filter(tasks, DueSameDay(day))
  }

  /** Every task is in the bucket of its own due day, in no bucket of another
      day, and the buckets keep the stored order. */
  lemma DayBuckets(tasks: seq<Task>, more: seq<Task>, t: Task, day: int)
    requires t in tasks
    ensures t in DayTasks(tasks, t.dueDate)
    ensures !SameDay(t.dueDate, day) ==> t !in DayTasks(tasks, day)
    ensures DayTasks(tasks + more, day) == DayTasks(tasks, day) + DayTasks(more, day)
  {
    FilterConcat(tasks, more, DueSameDay(day));
  }

  /**
    The list beside the calendar: when a date is selected, the stored tasks due
    that day; with no date selected the list is not recomputed and keeps what
    it held before.
   */
  function SelectedDayTasks(all: seq<Task>, date: Option<int>, previous: seq<Task>): (r: seq<Task>)
    ensures date.None? ==> r == previous
    ensures date.Some? ==> forall t :: t in r <==> t in all && SameDay(t.dueDate, date.value)
    ensures date.Some? ==> r == DayTasks(all, date.value)
  {
    if date.Some? then DayTasks(all, date.value) else previous
  }

  /** One dot under a calendar day. */
  datatype Dot = Colored(color: string) | Grey

  /** A dot's colour: the task's category colour, or `#888` when that is absent or empty. */
  function DotColor(t: Task): (c: string)
    ensures Truthy(t.categoryColor) ==> c == t.categoryColor.value
    ensures !Truthy(t.categoryColor) ==> c == "#888"
  {
    OrElse(t.categoryColor, "#888")
  }

  /**
    The indicator under a day: nothing for no tasks, one dot per task in the
    task's colour for one to three tasks, and exactly three grey dots for more.
   */
  function Indicator(dayTasks: seq<Task>): (r: seq<Dot>)
    ensures |r| <= 3
    ensures |dayTasks| == 0 <==> r == []
    ensures 1 <= |dayTasks| <= 3 ==>
              |r| == |dayTasks| && forall i :: 0 <= i < |r| ==> r[i] == Colored(DotColor(dayTasks[i]))
    ensures |dayTasks| > 3 ==> r == [Grey, Grey, Grey]
  {
    if |dayTasks| == 0 then []
    else if |dayTasks| <= 3 then seq(|dayTasks|, i requires 0 <= i < |dayTasks| => Colored(DotColor(dayTasks[i])))
    else [Grey, Grey, Grey]
  }
}

/** What the calendar page adds to the component: its empty state. */
module CalendarPage {
  import opened Common
  import opened TaskType
  import opened TaskCalendar

  /** The page shows "No tasks for this day" exactly when the list is empty. */
  predicate ShowsEmptyState(selected: seq<Task>) {
    |selected| == 0
  }

  /** With a date selected, the empty state shows exactly when no stored task is
      due that day. */
  lemma EmptyStateIffNoTasksThatDay(all: seq<Task>, date: int, previous: seq<Task>)
    ensures ShowsEmptyState(SelectedDayTasks(all, Some(date), previous)) <==>
      forall t :: t in all ==> !SameDay(t.dueDate, date)
  {
    var r := SelectedDayTasks(all, Some(date), previous);
    if |r| > 0 {
      assert r[0] in r;
    }
  }

  /** A day with tasks always shows at least one dot, and a coloured dot always
      carries the colour of one of that day's tasks or the grey fallback. */
  lemma IndicatorColours(all: seq<Task>, day: int)
    ensures var tasks := DayTasks(all, day);
      && (|tasks| > 0 ==> |Indicator(tasks)| > 0)
      && forall d :: d in Indicator(tasks) && d.Colored? ==>
           d.color == "#888" || exists t :: t in tasks && t.categoryColor == Some(d.color)
  {
    var tasks := DayTasks(all, day);
    var r := Indicator(tasks);
    forall d | d in r && d.Colored?
      ensures d.color == "#888" || exists t :: t in tasks && t.categoryColor == Some(d.color)
    {
      var i :| 0 <= i < |r| && r[i] == d;
      assert d.color == DotColor(tasks[i]);
      assert tasks[i] in tasks;
    }
  }
}

=== FILE: category_service.dfy ===
/**
  The category repository: the same read-modify-write shape as the task
  repository over the `"categories"` key, except that the first read of a
  never-written key seeds four default categories and persists them.
 */
module CategoryService {
  import opened Common
  import opened LocalStore

  /** The four ids the generator hands out when the defaults are seeded. */
  datatype SeedIds = SeedIds(math: string, science: string, literature: string, history: string)

  /** The default categories, in the order they are stored. */
  function DefaultCategories(ids: SeedIds): (r: seq<Category>)
    ensures |r| == 4
    ensures [r[0].name, r[1].name, r[2].name, r[3].name] == ["Math", "Science", "Literature", "History"]
    ensures [r[0].color, r[1].color, r[2].color, r[3].color] == ["#ef4444", "#3b82f6", "#10b981", "#f59e0b"]
    ensures [r[0].id, r[1].id, r[2].id, r[3].id] == [ids.math, ids.science, ids.literature, ids.history]
  {
    [ Category(ids.math, "Math", "#ef4444"),
      Category(ids.science, "Science", "#3b82f6"),
      Category(ids.literature, "Literature", "#10b981"),
      Category(ids.history, "History", "#f59e0b") ]
  }

  /**
    `getCategories`: outside a browser an empty list and no write; when the key
    has never been written, the defaults, written back; otherwise the stored
    list as it is, even when it is empty.
   */
  function GetCategories(s: Store, ids: SeedIds): (r: Outcome<seq<Category>>)
    ensures r.Ok?
    ensures !s.browser ==> r.value == [] && r.store == s
    ensures s.browser && s.categories.None? ==>
              r.value == DefaultCategories(ids) && r.store == s.(categories := Some(r.value))
    ensures s.browser && s.categories.Some? ==> r.value == s.categories.value && r.store == s
    ensures s.browser ==> r.store.categories == Some(r.value)
    ensures OnlyCategoriesChanged(s, r.store)
  {
    if !s.browser then Ok([], s)
    else if s.categories.None? then
      var defaults := DefaultCategories(ids);
      Ok(defaults, s.(categories := Some(defaults)))
    else Ok(s.categories.value, s)
  }

  /**
    `createCategory`: appends a category with the new id, name and colour to the
    list `getCategories` gives (seeding first if needed) and returns it. Names
    are not checked for duplicates. Outside a browser the write throws.
   */
  function CreateCategory(s: Store, ids: SeedIds, name: string, color: string, newId: string)
    : (r: Outcome<Category>)
    ensures r.Ok? <==> s.browser
    ensures r.Threw? ==> r.store == s
    ensures r.Ok? ==> r.value == Category(newId, name, color)
    ensures r.Ok? ==> r.store.categories == Some(GetCategories(s, ids).value + [r.value])
    ensures OnlyCategoriesChanged(s, r.store)
  {
    if !s.browser then Threw(s)
    else
      var current := GetCategories(s, ids);
      var c := Category(newId, name, color);
      Ok(c, current.store.(categories := Some(current.value + [c])))
  }

  /** The filter callback of `deleteCategory`. */
  function CategoryIdIsNot(id: string): Category -> bool {
    (c: Category) => c.id != id
  }

  /**
    `deleteCategory`: writes back the list without any category with the id and
    returns true, whether or not the id was present. Outside a browser the
    write throws.
   */
  function DeleteCategory(s: Store, ids: SeedIds, id: string): (r: Outcome<bool>)
    ensures r.Ok? <==> s.browser
    ensures r.Threw? ==> r.store == s
    ensures r.Ok? ==> r.value
    ensures r.Ok? ==>
              && r.store.categories.Some?
              && (forall c :: c in r.store.categories.value <==>
                               c in GetCategories(s, ids).value && c.id != id)
    ensures OnlyCategoriesChanged(s, r.store)
  {
    if !s.browser then Threw(s)
    else
      var current := GetCategories(s, ids);
      Ok(true, current.store.(categories := Some(Filter(current.value, CategoryIdIsNot(id)))))
  }

  /** The first read of a never-written key persists the four defaults; any
      later read, whatever ids the generator would hand out, returns them as
      stored and writes nothing. */
  lemma SeedOnce(s: Store, ids: SeedIds, later: SeedIds)
    requires s.browser && s.categories.None?
    ensures var first := GetCategories(s, ids);
      && |first.value| == 4
      && GetCategories(first.store, later) == Ok(first.value, first.store)
  {
  }

  /** On a never-seeded store, creating a category stores the four defaults
      followed by the new one. */
  lemma CreateOnFreshStore(s: Store, ids: SeedIds, name: string, color: string, newId: string)
    requires s.browser && s.categories.None?
    ensures CreateCategory(s, ids, name, color, newId).store.categories ==
      Some(DefaultCategories(ids) + [Category(newId, name, color)])
  {
  }

  /** Deleting twice stores what deleting once stores. */
  lemma DeleteIdempotent(s: Store, ids: SeedIds, later: SeedIds, id: string)
    ensures var once := DeleteCategory(s, ids, id).store;
      DeleteCategory(once, later, id).store == once
  {
    var current := GetCategories(s, ids).value;
    FilterIdempotent(current, CategoryIdIsNot(id));
  }

  /** Deletion keeps the surviving categories in their order: deleting from a
      list read as two parts deletes from each part. */
  lemma DeleteKeepsOrder(s: Store, ids: SeedIds, id: string, front: seq<Category>, back: seq<Category>)
    requires s.browser && GetCategories(s, ids).value == front + back
    ensures DeleteCategory(s, ids, id).store.categories ==
      Some(Filter(front, CategoryIdIsNot(id)) + Filter(back, CategoryIdIsNot(id)))
  {
    FilterConcat(front, back, CategoryIdIsNot(id));
  }

  /** Once every stored category is deleted, the key holds an empty list, which
      is a written value: later reads return nothing and never seed again. */
  lemma DeletingAllDoesNotReseed(s: Store, ids: SeedIds, later: SeedIds, id: string)
    requires s.browser
    requires forall c :: c in GetCategories(s, ids).value ==> c.id == id
    ensures var after := DeleteCategory(s, ids, id).store;
      && after.categories == Some([])
      && GetCategories(after, later) == Ok([], after)
  {
    var current := GetCategories(s, ids).value;
    assert forall i :: 0 <= i < |current| ==> current[i] in current;
    FilterNone(current, CategoryIdIsNot(id));
  }

  /** Creating the same name twice stores two categories with that name: there
      is no uniqueness check on names. */
  lemma DuplicateNamesAccepted(s: Store, ids: SeedIds, name: string, color: string, id1: string, id2: string)
    requires s.browser
    ensures var s1 := CreateCategory(s, ids, name, color, id1).store;
      var s2 := CreateCategory(s1, ids, name, color, id2).store;
      && s2.categories.Some?
      && |s2.categories.value| >= 2
      && s2.categories.value[|s2.categories.value| - 2].name == name
      && s2.categories.value[|s2.categories.value| - 1].name == name
  {
  }
}

=== FILE: common.dfy ===
/**
  Small shared vocabulary: an optional value and the order-preserving sequence
  filter that every `Array.prototype.filter` of the application is modelled by.
 */
module Common {

  /** A value that may be absent: `undefined` / `null` in the application. */
  datatype Option<T> = None | Some(value: T)

  /** True when an optional string is present and non-empty (JavaScript truthiness). */
  predicate Truthy(x: Option<string>) {
    x.Some? && x.value != ""
  }

  /** The JavaScript `x || fallback` idiom for an optional string: the fallback
      is taken when the value is absent or empty (both are falsy). */
  function OrElse(x: Option<string>, fallback: string): string {
    if Truthy(x) then x.value else fallback
  }

  /** The elements of `s` that satisfy `p`, in their original order. */
  function Filter<T(!new)>(s: seq<T>, p: T -> bool): (r: seq<T>)
    ensures |r| <= |s|
    ensures forall x :: x in r <==> x in s && p(x)
    ensures forall i :: 0 <= i < |r| ==> p(r[i])
    decreases |s|
  {
    if |s| == 0 then []
    else (if p(s[0]) then [s[0]] else []) + Filter(s[1..], p)
  }

  /** Filtering a concatenation filters each part: the relative order of the
      kept elements is the order they had in the input. */
  lemma {:induction false} FilterConcat<T(!new)>(a: seq<T>, b: seq<T>, p: T -> bool)
    ensures Filter(a + b, p) == Filter(a, p) + Filter(b, p)
    decreases |a|
  {
    if |a| == 0 {
      assert a + b == b;
    } else {
      assert (a + b)[1..] == a[1..] + b;
      FilterConcat(a[1..], b, p);
    }
  }

  /** Filtering twice with the same predicate removes nothing more. */
  lemma {:induction false} FilterIdempotent<T(!new)>(s: seq<T>, p: T -> bool)
    ensures Filter(Filter(s, p), p) == Filter(s, p)
    decreases |s|
  {
    if |s| > 0 {
      FilterIdempotent(s[1..], p);
      if p(s[0]) {
        assert ([s[0]] + Filter(s[1..], p))[1..] == Filter(s[1..], p);
      } else {
        assert [] + Filter(s[1..], p) == Filter(s[1..], p);
      }
    }
  }

  /** When every element satisfies the predicate, the filter keeps the sequence as it is. */
  lemma {:induction false} FilterAll<T(!new)>(s: seq<T>, p: T -> bool)
    requires forall i :: 0 <= i < |s| ==> p(s[i])
    ensures Filter(s, p) == s
    decreases |s|
  {
    if |s| > 0 {
      FilterAll(s[1..], p);
      assert [s[0]] + s[1..] == s;
    }
  }

  /** Filtering a list with a first element. */
  lemma FilterCons<T(!new)>(x: T, s: seq<T>, p: T -> bool)
    ensures Filter([x] + s, p) == (if p(x) then [x] else []) + Filter(s, p)
  {
    assert ([x] + s)[1..] == s;
  }

  /** When no element satisfies the predicate, nothing is kept. */
  lemma {:induction false} FilterNone<T(!new)>(s: seq<T>, p: T -> bool)
    requires forall i :: 0 <= i < |s| ==> !p(s[i])
    ensures Filter(s, p) == []
    decreases |s|
  {
    if |s| > 0 {
      FilterNone(s[1..], p);
    }
  }

  /** Filtering the last element on after a prefix. */
  lemma FilterSnoc<T(!new)>(s: seq<T>, x: T, p: T -> bool)
    ensures Filter(s + [x], p) == Filter(s, p) + (if p(x) then [x] else [])
  {
    FilterConcat(s, [x], p);
    assert Filter([x], p) == (if p(x) then [x] else []) + Filter([x][1..], p);
    assert [x][1..] == [];
  }
}

=== FILE: local_store.dfy ===
/**
  The browser's `localStorage` as the repositories use it: three keys, each
  absent or holding the last value written under it. Values are kept already
  decoded, since `JSON.stringify` followed by `JSON.parse` gives back the same
  records.
 */
module LocalStore {
  import opened Common
  import opened TaskType

  /** A category (`interface Category` of the category repository). */
  datatype Category = Category(id: string, name: string, color: string)

  /** The single settings record (`interface Settings` of the settings repository). */
  datatype Settings = Settings(
    notifications: bool,
    emailNotifications: bool,
    reminderTime: string,
    defaultView: string,
    theme: string,
    summaryFrequency: string)

  /**
    `browser` is false when the code runs without a `window` (server
    rendering); there `localStorage` does not exist and touching it throws.
    `tasks`, `categories` and `settings` are the values under the keys
    `"tasks"`, `"categories"` and `"settings"`.
   */
  datatype Store = Store(
    browser: bool,
    tasks: Option<seq<Task>>,
    categories: Option<seq<Category>>,
    settings: Option<Settings>)

  /** The settled promise of a repository call together with the store it leaves
      behind. A call that throws leaves the store as it found it. */
  datatype Outcome<T> = Ok(value: T, store: Store) | Threw(store: Store)

  /** Only the `"tasks"` key may differ between the two stores. */
  predicate OnlyTasksChanged(s: Store, s': Store) {
    s'.browser == s.browser && s'.categories == s.categories && s'.settings == s.settings
  }

  /** Only the `"categories"` key may differ between the two stores. */
  predicate OnlyCategoriesChanged(s: Store, s': Store) {
    s'.browser == s.browser && s'.tasks == s.tasks && s'.settings == s.settings
  }

  /** Only the `"settings"` key may differ between the two stores. */
  predicate OnlySettingsChanged(s: Store, s': Store) {
    s'.browser == s.browser && s'.tasks == s.tasks && s'.categories == s.categories
  }
}

=== FILE: nav.dfy ===
/**
  The desktop sidebar: which entry is highlighted for the current pathname.
 */
module Sidebar {
  datatype Entry = Dashboard | Tasks | Calendar | Categories | Reports | Settings

  function Href(e: Entry): string {
    match e
    case Dashboard => "/"
    case Tasks => "/tasks"
    case Calendar => "/calendar"
    case Categories => "/categories"
    case Reports => "/reports"
    case Settings => "/settings"
  }

  /** Tasks is active on its own page and on every page below `/tasks/`; every
      other entry only on its own page. Either way the entry's link is a prefix
      of the pathname. */
  predicate Active(e: Entry, path: string)
    ensures Active(e, path) ==> Href(e) <= path
  {
    if e == Tasks then path == "/tasks" || "/tasks/" <= path
    else path == Href(e)
  }

  /** A pathname below `/tasks/` is at least seven characters long and has `t` and `/`
      where `/tasks/` has them. */
  lemma UnderTasks(path: string)
    requires "/tasks/" <= path
    ensures |path| >= 7 && path[1] == 't' && path[6] == '/'
  {
    assert path[..7] == "/tasks/";
  }

  /** No two distinct entries are active on one pathname. */
  lemma AtMostOneActive(path: string, a: Entry, b: Entry)
    requires Active(a, path) && Active(b, path)
    ensures a == b
  {
    if (a == Tasks || b == Tasks) && "/tasks/" <= path {
      UnderTasks(path);
    }
  }

  /** Every entry is highlighted on its own page, and nothing else is. */
  lemma OwnPage(e: Entry, other: Entry)
    ensures Active(e, Href(e))
    ensures Active(other, Href(e)) ==> other == e
  {
    if Active(other, Href(e)) {
      AtMostOneActive(Href(e), e, other);
    }
  }

  /** Tasks stays highlighted on a task's detail page and on the new-task page,
      but nothing is highlighted on a path that merely starts with the same letters. */
  lemma TasksPrefix(id: string, e: Entry)
    ensures Active(Tasks, "/tasks/" + id)
    ensures Active(Tasks, "/tasks/new")
    ensures !Active(e, "/tasksX")
  {
    assert ("/tasks/" + id)[..7] == "/tasks/";
    if "/tasks/" <= "/tasksX" {
      UnderTasks("/tasksX");
    }
  }
}

/**
  The mobile bottom bar: like the sidebar, but with a New entry that owns
  `/tasks/new`, and no Categories or Reports entries.
 */
module MobileNav {
  import Sidebar

  datatype Entry = Home | Tasks | New | Calendar | Settings

  function Href(e: Entry): string {
    match e
    case Home => "/"
    case Tasks => "/tasks"
    case New => "/tasks/new"
    case Calendar => "/calendar"
    case Settings => "/settings"
  }

  /** Tasks is active on its page and every page below `/tasks/` except the
      new-task page, which belongs to New; the rest only on their own page.
      Either way the entry's link is a prefix of the pathname. */
  predicate Active(e: Entry, path: string)
    ensures Active(e, path) ==> Href(e) <= path
  {
    if e == Tasks then path == "/tasks" || ("/tasks/" <= path && path != "/tasks/new")
    else path == Href(e)
  }

  /** No two distinct entries are active on one pathname. */
  lemma AtMostOneActive(path: string, a: Entry, b: Entry)
    requires Active(a, path) && Active(b, path)
    ensures a == b
  {
    if (a == Tasks || b == Tasks) && "/tasks/" <= path {
      Sidebar.UnderTasks(path);
    }
  }

  /** Every entry is highlighted on its own page, and nothing else is, although
      New's page lies below `/tasks/`, where the sidebar highlights Tasks. */
  lemma OwnPage(e: Entry, other: Entry)
    ensures Active(e, Href(e))
    ensures Active(other, Href(e)) ==> other == e
    ensures e == New ==> Sidebar.Active(Sidebar.Tasks, Href(e))
  {
    if Active(other, Href(e)) {
      AtMostOneActive(Href(e), e, other);
    }
  }

  /** `/tasks/new` highlights New and not Tasks; any other page below `/tasks/`
      highlights Tasks. */
  lemma NewTaskPageOwnsNew(id: string)
    requires id != "new"
    ensures Active(New, "/tasks/new") && !Active(Tasks, "/tasks/new")
    ensures Active(Tasks, "/tasks/" + id)
  {
    assert ("/tasks/" + id)[..7] == "/tasks/";
    assert ("/tasks/" + id)[7..] == id;
  }

  /** The pages without a mobile entry highlight nothing. */
  lemma NoEntryPages(e: Entry)
    ensures !Active(e, "/categories")
    ensures !Active(e, "/reports")
  {
    if "/tasks/" <= "/categories" {
      Sidebar.UnderTasks("/categories");
    }
    if "/tasks/" <= "/reports" {
      Sidebar.UnderTasks("/reports");
    }
  }

  /** The two bars agree wherever the mobile bar has the page, except on
      `/tasks/new`, where the sidebar highlights Tasks and the mobile bar New. */
  lemma BarsAgree(path: string)
    requires path != "/tasks/new"
    ensures Active(Home, path) <==> Sidebar.Active(Sidebar.Dashboard, path)
    ensures Active(Tasks, path) <==> Sidebar.Active(Sidebar.Tasks, path)
    ensures Active(Calendar, path) <==> Sidebar.Active(Sidebar.Calendar, path)
    ensures Active(Settings, path) <==> Sidebar.Active(Sidebar.Settings, path)
    ensures !Active(New, path)
  {
  }
}

=== FILE: pages.dfy ===
/**
  The new-task form's submit handler: its guard, the record it hands to the
  task repository, and the state it leaves the form in.
 */
module NewTaskPage {
  import opened Common
  import opened TaskType
  import opened LocalStore
  import TaskService

  /** The form's inputs. `category` is the selected category id (empty when none
      is chosen); `dueDate` is absent until a day is picked. */
  datatype Form = Form(
    title: string,
    description: string,
    category: string,
    priority: string,
    dueDate: Option<int>,
    recurrence: string)

  /** `categories.find(c => c.id === category)`: the first category with the id. */
  function SelectedCategory(categories: seq<Category>, id: string): (r: Option<Category>)
    ensures r.None? <==> forall i :: 0 <= i < |categories| ==> categories[i].id != id
    ensures r.Some? ==>
      exists i :: 0 <= i < |categories| && categories[i] == r.value && r.value.id == id
                  && forall k :: 0 <= k < i ==> categories[k].id != id
    decreases |categories|
  {
    if |categories| == 0 then None
    else if categories[0].id == id then Some(categories[0])
    else
      var r := SelectedCategory(categories[1..], id);
      assert forall k :: 1 <= k < |categories| ==> categories[k] == categories[1..][k - 1];
      r
  }

  /**
    The record passed to `createTask`: the typed fields as entered, the name and
    colour of the selected category (or empty strings when the selection matches
    none), not completed and without attachments.
   */
  function NewTaskData(form: Form, categories: seq<Category>, due: int): (d: TaskData)
    ensures !d.completed && d.hasAttachments == Some(false)
    ensures d.title == form.title && d.dueDate == due
    ensures d.description == Some(form.description)
    ensures d.priority == Some(form.priority) && d.recurrence == Some(form.recurrence)
    ensures (forall i :: 0 <= i < |categories| ==> categories[i].id != form.category) ==>
              d.category == Some("") && d.categoryColor == Some("")
    ensures forall i :: (0 <= i < |categories| && categories[i].id == form.category
                          && forall k :: 0 <= k < i ==> categories[k].id != form.category) ==>
              d.category == Some(categories[i].name) && d.categoryColor == Some(categories[i].color)
  {
    var selected := SelectedCategory(categories, form.category);
    var name := if selected.Some? then OrElse(Some(selected.value.name), "") else "";
    var color := if selected.Some? then OrElse(Some(selected.value.color), "") else "";
    TaskData(form.title, Some(form.description), due, false, Some(name), Some(color),
             Some(form.priority), Some(form.recurrence), Some(false))
  }

  /**
    What a submit leaves behind: the store, the task created (if any), whether
    the page navigated to the task list, and the `isSubmitting` flag.
   */
  datatype Submitted = Submitted(store: Store, created: Option<Task>, navigated: bool, submitting: bool)

  /**
    `handleSubmit`: an empty title or a missing due date returns at once and
    changes nothing. Otherwise the task is created; a repository failure is
    caught and logged, and either way `isSubmitting` ends false. Only a
    successful create navigates away.
   */
  function HandleSubmit(s: Store, form: Form, categories: seq<Category>, submitting: bool, newId: string)
    : (r: Submitted)
    ensures form.title == "" || form.dueDate.None? ==> r == Submitted(s, None, false, submitting)
    ensures form.title != "" && form.dueDate.Some? ==>
              && !r.submitting
              && r.navigated == s.browser
              && r.created.Some? == s.browser
              && r.store == TaskService.CreateTask(s, NewTaskData(form, categories, form.dueDate.value), newId).store
    ensures r.created.Some? ==>
              && r.created.value.id == newId
              && ToData(r.created.value) == NewTaskData(form, categories, form.dueDate.value)
              && r.store.tasks == Some(TaskService.GetTasks(s) + [r.created.value])
  {
    if form.title == "" || form.dueDate.None? then Submitted(s, None, false, submitting)
    else
      var out := TaskService.CreateTask(s, NewTaskData(form, categories, form.dueDate.value), newId);
      if out.Ok? then Submitted(out.store, Some(out.value), true, false)
      else Submitted(out.store, None, false, false)
  }

  /** Leaving the priority unselected stores an empty priority string, which is
      outside the declared enum. */
  lemma EmptyPriorityNotWellTyped(s: Store, form: Form, categories: seq<Category>, newId: string)
    requires s.browser && form.title != "" && form.dueDate.Some? && form.priority == ""
    ensures var r := HandleSubmit(s, form, categories, false, newId);
      r.created.Some? && !WellTyped(r.created.value)
  {
  }

  /** A created task reads back through the repository under its new id,
      uncompleted, when the stored ids were unique and the new id fresh. */
  lemma SubmittedTaskReadsBack(s: Store, form: Form, categories: seq<Category>, newId: string)
    requires s.browser && form.title != "" && form.dueDate.Some?
    requires forall t :: t in TaskService.GetTasks(s) ==> t.id != newId
    ensures var r := HandleSubmit(s, form, categories, false, newId);
      && r.created.Some?
      && TaskService.GetTask(r.store, newId) == r.created
      && !r.created.value.completed
  {
    TaskService.CreateThenGet(s, NewTaskData(form, categories, form.dueDate.value), newId);
  }
}

/**
  The categories page: the displayed list and the two inputs, and how creating
  and deleting update them alongside the repository.
 */
module CategoriesPage {
  import opened Common
  import opened LocalStore
  import CategoryService

  /** The colour input's initial and reset value. */
  const DefaultColor: string := "#6366f1"

  /** The page state: the displayed list and the name and colour inputs. */
  datatype View = View(shown: seq<Category>, name: string, color: string)

  /**
    `handleCreateCategory`: an empty name does nothing. Otherwise the category
    is created; on success it is appended to the displayed list and the inputs
    are reset, and on failure the error is caught and nothing on the page
    changes.
   */
  function HandleCreate(s: Store, ids: CategoryService.SeedIds, view: View, newId: string): (r: (Store, View))
    ensures view.name == "" ==> r == (s, view)
    ensures view.name != "" && !s.browser ==> r == (s, view)
    ensures view.name != "" && s.browser ==>
              && r.1 == View(view.shown + [Category(newId, view.name, view.color)], "", DefaultColor)
              && r.0 == CategoryService.CreateCategory(s, ids, view.name, view.color, newId).store
  {
    if view.name == "" then (s, view)
    else
      var out := CategoryService.CreateCategory(s, ids, view.name, view.color, newId);
      if out.Ok? then (out.store, View(view.shown + [out.value], "", DefaultColor))
      else (out.store, view)
  }

  /**
    `handleDeleteCategory`: deletes through the repository, then drops every
    displayed entry with the id, keeping the rest in order and the inputs as
    they are. A failure is caught and changes nothing.
   */
  function HandleDelete(s: Store, ids: CategoryService.SeedIds, view: View, id: string): (r: (Store, View))
    ensures !s.browser ==> r == (s, view)
    ensures s.browser ==>
              && r.0 == CategoryService.DeleteCategory(s, ids, id).store
              && r.1.name == view.name && r.1.color == view.color
              && (forall c :: c in r.1.shown <==> c in view.shown && c.id != id)
  {
    var out := CategoryService.DeleteCategory(s, ids, id);
    if out.Ok? then (out.store, view.(shown := Filter(view.shown, CategoryService.CategoryIdIsNot(id))))
    else (out.store, view)
  }

  /** The displayed list is exactly the stored one. */
  predicate InSync(s: Store, view: View) {
    s.browser && s.categories == Some(view.shown)
  }

  /** The page shows what `getCategories` returns on mount; in a browser that read
      leaves the key written, so the page starts in sync. */
  lemma LoadIsInSync(s: Store, ids: CategoryService.SeedIds)
    requires s.browser
    ensures var loaded := CategoryService.GetCategories(s, ids);
      InSync(loaded.store, View(loaded.value, "", DefaultColor))
  {
  }

  /** As long as nothing else writes the key, creating keeps the page in sync. */
  lemma CreateKeepsInSync(s: Store, ids: CategoryService.SeedIds, view: View, newId: string)
    requires InSync(s, view)
    ensures var r := HandleCreate(s, ids, view, newId);
      InSync(r.0, r.1)
  {
  }

  /** As long as nothing else writes the key, deleting keeps the page in sync. */
  lemma DeleteKeepsInSync(s: Store, ids: CategoryService.SeedIds, view: View, id: string)
    requires InSync(s, view)
    ensures var r := HandleDelete(s, ids, view, id);
      InSync(r.0, r.1)
  {
    var kept := Filter(view.shown, CategoryService.CategoryIdIsNot(id));
    assert CategoryService.DeleteCategory(s, ids, id).store == s.(categories := Some(kept));
  }

  /** Deleting keeps the other displayed entries in their order: deleting from
      the front and back halves separately gives the same list. */
  lemma DeleteKeepsOrder(s: Store, ids: CategoryService.SeedIds, front: seq<Category>, back: seq<Category>,
                         name: string, color: string, id: string)
    requires s.browser
    ensures var r := HandleDelete(s, ids, View(front + back, name, color), id).1.shown;
      r == HandleDelete(s, ids, View(front, name, color), id).1.shown
         + HandleDelete(s, ids, View(back, name, color), id).1.shown
  {
    FilterConcat(front, back, CategoryService.CategoryIdIsNot(id));
  }
}

=== FILE: reports.dfy ===
/**
  The figures the reports page computes from the stored tasks: the completion
  count and rate, and the per-category counts behind the pie chart.
 */
module Reports {
  import opened Common
  import opened TaskType

  function IsDone(): Task -> bool { (t: Task) => t.completed }

  /** How many tasks are completed, counted from the back of the list. */
  function CountDone(tasks: seq<Task>): nat
    decreases |tasks|
  {
    if |tasks| == 0 then 0
    else CountDone(tasks[..|tasks| - 1]) + (if tasks[|tasks| - 1].completed then 1 else 0)
  }

  /** `tasks.filter(t => t.completed).length`: the number of completed tasks,
      never more than the total. */
  function CompletedCount(tasks: seq<Task>): (r: nat)
    ensures r == CountDone(tasks)
    ensures r <= |tasks|
    ensures r == |tasks| <==> forall i :: 0 <= i < |tasks| ==> tasks[i].completed
  {
    var done := Filter(tasks, IsDone());
    assert |done| == |tasks| <==> forall i :: 0 <= i < |tasks| ==> tasks[i].completed by {
      if |done| == |tasks| {
        FilterAllKept(tasks, IsDone());
      }
      if forall i :: 0 <= i < |tasks| ==> tasks[i].completed {
        FilterAll(tasks, IsDone());
      }
    }
    FilterCountsDone(tasks);
    |done|
  }

  /** The filter keeps exactly as many tasks as `CountDone` counts. */
  lemma {:induction false} FilterCountsDone(tasks: seq<Task>)
    ensures |Filter(tasks, IsDone())| == CountDone(tasks)
    decreases |tasks|
  {
    if |tasks| > 0 {
      var front := tasks[..|tasks| - 1];
      var last := tasks[|tasks| - 1];
      FilterCountsDone(front);
      assert tasks == front + [last];
      FilterSnoc(front, last, IsDone());
    }
  }

  /** A filter that keeps as many elements as it was given kept every one of them. */
  lemma {:induction false} FilterAllKept<T(!new)>(s: seq<T>, p: T -> bool)
    requires |Filter(s, p)| == |s|
    ensures forall i :: 0 <= i < |s| ==> p(s[i])
    decreases |s|
  {
    if |s| > 0 {
      assert |Filter(s[1..], p)| <= |s[1..]|;
      FilterAllKept(s[1..], p);
      forall i | 0 <= i < |s|
        ensures p(s[i])
      {
        if i > 0 { assert s[i] == s[1..][i - 1]; }
      }
    }
  }

  /**
    `Math.round(completed / total * 100)`, or 0 with no tasks, on exact
    rationals: the integer nearest to `100 * completed / total`, halves
    rounded up.
   */
  function CompletionRate(completed: nat, total: nat): (r: nat)
    requires completed <= total
    ensures total == 0 ==> r == 0
    ensures total > 0 ==> 2 * total * r <= 200 * completed + total < 2 * total * r + 2 * total
    ensures r <= 100
    ensures total > 0 && completed == total ==> r == 100
  {
    if total == 0 then 0
    else
      var r := (200 * completed + total) / (2 * total);
      RateBounds(completed, total, r);
      r
  }

  lemma RoundingBounds(n: nat, d: nat, q: nat)
    requires d > 0 && q == n / d
    ensures d * q <= n < d * q + d
  {
  }

  lemma MulMonotone(d: nat, x: int, y: int)
    requires x <= y
    ensures d * x <= d * y
  {
  }

  lemma RateBounds(completed: nat, total: nat, r: nat)
    requires 0 < total && completed <= total
    requires r == (200 * completed + total) / (2 * total)
    ensures 2 * total * r <= 200 * completed + total < 2 * total * r + 2 * total
    ensures r <= 100
    ensures completed == total ==> r == 100
  {
    var d := 2 * total;
    var n := 200 * completed + total;
    RoundingBounds(n, d, r);
    if r > 100 {
      MulMonotone(d, 101, r);
      assert false;
    }
    if completed == total && r < 100 {
      MulMonotone(d, r, 99);
      assert false;
    }
  }

  /** The completion card: completed count, total and rate. */
  function CompletionSummary(tasks: seq<Task>): (r: (nat, nat, nat))
    ensures r.0 == CountDone(tasks) && r.1 == |tasks|
    ensures r.0 <= r.1 && r.2 == CompletionRate(r.0, r.1)
    ensures r.2 <= 100
    ensures |tasks| == 0 ==> r.2 == 0
    ensures |tasks| > 0 && (forall i :: 0 <= i < |tasks| ==> tasks[i].completed) ==> r.2 == 100
  {
    var done := CompletedCount(tasks);
    (done, |tasks|, CompletionRate(done, |tasks|))
  }

  /** One slice of the pie chart. */
  datatype Slice = Slice(name: string, value: int)

  /** The task counts towards category `name`: its category is present, non-empty and equal. */
  function InCategory(name: string): Task -> bool {
    (t: Task) => Truthy(t.category) && t.category.value == name
  }

  /** How many tasks are in category `name`. */
  function CountIn(tasks: seq<Task>, name: string): nat
    decreases |tasks|
  {
    if |tasks| == 0 then 0
    else CountIn(tasks[..|tasks| - 1], name) + (if InCategory(name)(tasks[|tasks| - 1]) then 1 else 0)
  }

  /** How many tasks have a category at all. */
  function Categorized(tasks: seq<Task>): nat
    decreases |tasks|
  {
    if |tasks| == 0 then 0
    else Categorized(tasks[..|tasks| - 1]) + (if Truthy(tasks[|tasks| - 1].category) then 1 else 0)
  }

  /** Counting in a category agrees with filtering the tasks of that category. */
  lemma {:induction false} CountInIsFilter(tasks: seq<Task>, name: string)
    ensures CountIn(tasks, name) == |Filter(tasks, InCategory(name))|
    decreases |tasks|
  {
    if |tasks| > 0 {
      var front := tasks[..|tasks| - 1];
      assert tasks == front + [tasks[|tasks| - 1]];
      CountInIsFilter(front, name);
      FilterSnoc(front, tasks[|tasks| - 1], InCategory(name));
    }
  }

  /** The distinct non-empty category names of the tasks, in order of first appearance. */
  function CategoryNames(tasks: seq<Task>): seq<string>
    decreases |tasks|
  {
    if |tasks| == 0 then []
    else
      var names := CategoryNames(tasks[..|tasks| - 1]);
      var t := tasks[|tasks| - 1];
      if Truthy(t.category) && t.category.value !in names then names + [t.category.value]
      else names
  }

  /** No name is listed twice. */
  predicate Distinct(names: seq<string>) {
    forall i, j :: 0 <= i < j < |names| ==> names[i] != names[j]
  }

  /** The listed names are distinct. */
  lemma {:induction false} CategoryNamesDistinct(tasks: seq<Task>)
    ensures Distinct(CategoryNames(tasks))
    decreases |tasks|
  {
    if |tasks| > 0 {
      var front := tasks[..|tasks| - 1];
      var t := tasks[|tasks| - 1];
      CategoryNamesDistinct(front);
      var names := CategoryNames(front);
      if Truthy(t.category) && t.category.value !in names {
        var names' := names + [t.category.value];
        forall i, j | 0 <= i < j < |names'|
          ensures names'[i] != names'[j]
        {
          assert names'[i] == names[i] && names[i] in names;
        }
      }
    }
  }

  /** A name is listed exactly when some task is in that category. */
  lemma {:induction false} CategoryNamesMembers(tasks: seq<Task>, n: string)
    ensures n in CategoryNames(tasks) <==> CountIn(tasks, n) > 0
    decreases |tasks|
  {
    if |tasks| > 0 {
      var front := tasks[..|tasks| - 1];
      var t := tasks[|tasks| - 1];
      assert tasks == front + [t];
      CategoryNamesMembers(front, n);
      CountStep(front, t, n);
    }
  }

  /** Names that appear in a prefix of the task list keep their place: the chart
      lists categories by first appearance. */
  lemma {:induction false} CategoryNamesPrefix(front: seq<Task>, back: seq<Task>)
    ensures CategoryNames(front) <= CategoryNames(front + back)
    decreases |back|
  {
    if |back| > 0 {
      var back' := back[..|back| - 1];
      assert (front + back)[..|front + back| - 1] == front + back';
      CategoryNamesPrefix(front, back');
    } else {
      assert front + back == front;
    }
  }

  /** Sum of the slice values. */
  function Total(slices: seq<Slice>): int
    decreases |slices|
  {
    if |slices| == 0 then 0 else slices[0].value + Total(slices[1..])
  }

  lemma {:induction false} TotalUpdate(slices: seq<Slice>, j: nat, s: Slice)
    requires j < |slices|
    ensures Total(slices[j := s]) == Total(slices) - slices[j].value + s.value
    decreases |slices|
  {
    if j > 0 {
      TotalUpdate(slices[1..], j - 1, s);
      assert slices[j := s][1..] == slices[1..][j - 1 := s];
    }
  }

  lemma {:induction false} TotalSnoc(slices: seq<Slice>, s: Slice)
    ensures Total(slices + [s]) == Total(slices) + s.value
    decreases |slices|
  {
    if |slices| == 0 {
      assert Total([s]) == s.value + Total([s][1..]);
    } else {
      TotalSnoc(slices[1..], s);
      assert (slices + [s])[1..] == slices[1..] + [s];
    }
  }

  /** `acc.find(item => item.name === name)`: the first slice with the name, or `|acc|`. */
  function FindSlice(acc: seq<Slice>, name: string): (j: nat)
    ensures j <= |acc|
    ensures j < |acc| ==> acc[j].name == name
    ensures forall i :: 0 <= i < j ==> acc[i].name != name
    decreases |acc|
  {
    if |acc| == 0 then 0
    else if acc[0].name == name then 0
    else 1 + FindSlice(acc[1..], name)
  }

  /** The reduce callback: skip a task without a category, otherwise add one to
      the first slice with its name, or append a slice of one. */
  function Step(acc: seq<Slice>, t: Task): (r: seq<Slice>)
    ensures !Truthy(t.category) ==> r == acc
    ensures |acc| <= |r| <= |acc| + 1
    ensures forall i :: 0 <= i < |acc| ==> r[i].name == acc[i].name
    ensures Total(r) == Total(acc) + (if Truthy(t.category) then 1 else 0)
  {
    if !Truthy(t.category) then acc
    else
      var j := FindSlice(acc, t.category.value);
      if j < |acc| then
        TotalUpdate(acc, j, Slice(acc[j].name, acc[j].value + 1));
        acc[j := Slice(acc[j].name, acc[j].value + 1)]
      else
        TotalSnoc(acc, Slice(t.category.value, 1));
        acc + [Slice(t.category.value, 1)]
  }

  /** `acc` is the chart data of `tasks`: one slice per category name in order
      of first appearance, each counting its tasks, adding up to the number of
      tasks with a category. */
  ghost predicate Tallies(acc: seq<Slice>, tasks: seq<Task>) {
    && |acc| == |CategoryNames(tasks)|
    && (forall i :: 0 <= i < |acc| ==> acc[i].name == CategoryNames(tasks)[i])
    && (forall i :: 0 <= i < |acc| ==> acc[i].value == CountIn(tasks, acc[i].name))
    && (forall i :: 0 <= i < |acc| ==> acc[i].value >= 1 && acc[i].name != "")
    && Total(acc) == Categorized(tasks)
  }

  lemma NamesStep(front: seq<Task>, t: Task)
    ensures CategoryNames(front + [t]) ==
      if Truthy(t.category) && t.category.value !in CategoryNames(front)
      then CategoryNames(front) + [t.category.value]
      else CategoryNames(front)
  {
    assert (front + [t])[..|front + [t]| - 1] == front;
  }

  lemma CountStep(front: seq<Task>, t: Task, n: string)
    ensures CountIn(front + [t], n) ==
      CountIn(front, n) + (if Truthy(t.category) && t.category.value == n then 1 else 0)
    ensures Categorized(front + [t]) == Categorized(front) + (if Truthy(t.category) then 1 else 0)
  {
    assert (front + [t])[..|front + [t]| - 1] == front;
  }

  /** A task without a category leaves the chart data as it is. */
  lemma StepSkip(acc: seq<Slice>, front: seq<Task>, t: Task)
    requires Tallies(acc, front) && !Truthy(t.category)
    ensures Tallies(Step(acc, t), front + [t])
  {
    NamesStep(front, t);
    forall i | 0 <= i < |acc|
      ensures acc[i].value == CountIn(front + [t], acc[i].name)
    {
      CountStep(front, t, acc[i].name);
    }
  }

  /** A task whose category already has a slice adds one to that slice only. */
  lemma StepIncrement(acc: seq<Slice>, front: seq<Task>, t: Task)
    requires Tallies(acc, front) && Truthy(t.category)
    requires FindSlice(acc, t.category.value) < |acc|
    ensures Tallies(Step(acc, t), front + [t])
  {
    var name := t.category.value;
    var j := FindSlice(acc, name);
    var names := CategoryNames(front);
    var acc' := acc[j := Slice(name, acc[j].value + 1)];
    assert Step(acc, t) == acc';
    assert CategoryNames(front + [t]) == names by {
      assert names[j] == name;
      NamesStep(front, t);
    }
    assert Distinct(names) by {
      CategoryNamesDistinct(front);
    }
    IncrementCounts(acc, names, front, t, j);
    assert Total(acc') == Categorized(front + [t]) by {
      TotalUpdate(acc, j, Slice(name, acc[j].value + 1));
      CountStep(front, t, name);
    }
    IncrementShape(acc, names, j, name);
  }

  /** Adding one to a slice keeps every name in place and every value positive. */
  lemma IncrementShape(acc: seq<Slice>, names: seq<string>, j: nat, name: string)
    requires j < |acc| == |names| && acc[j].name == name
    requires forall i :: 0 <= i < |acc| ==> acc[i].name == names[i]
    requires forall i :: 0 <= i < |acc| ==> acc[i].value >= 1 && acc[i].name != ""
    ensures var acc' := acc[j := Slice(name, acc[j].value + 1)];
      && |acc'| == |names|
      && (forall i :: 0 <= i < |acc'| ==> acc'[i].name == names[i])
      && (forall i :: 0 <= i < |acc'| ==> acc'[i].value >= 1 && acc'[i].name != "")
  {
  }

  /** The counts after adding one to the slice of the task's category: the names
      are distinct, so no other slice counts the task. */
  lemma IncrementCounts(acc: seq<Slice>, names: seq<string>, front: seq<Task>, t: Task, j: nat)
    requires Truthy(t.category) && j < |acc| == |names| && acc[j].name == t.category.value
    requires Distinct(names) && forall i :: 0 <= i < |acc| ==> acc[i].name == names[i]
    requires forall i :: 0 <= i < |acc| ==> acc[i].value == CountIn(front, acc[i].name)
    ensures var acc' := acc[j := Slice(t.category.value, acc[j].value + 1)];
      forall i :: 0 <= i < |acc'| ==> acc'[i].value == CountIn(front + [t], acc'[i].name)
  {
    var acc' := acc[j := Slice(t.category.value, acc[j].value + 1)];
    forall i | 0 <= i < |acc'|
      ensures acc'[i].value == CountIn(front + [t], acc'[i].name)
    {
      CountStep(front, t, acc[i].name);
      if i != j {
        assert names[i] != names[j];
      }
    }
  }

  /** A task with a category not seen before appends a slice of one. */
  lemma StepAppend(acc: seq<Slice>, front: seq<Task>, t: Task)
    requires Tallies(acc, front) && Truthy(t.category)
    requires FindSlice(acc, t.category.value) == |acc|
    ensures Tallies(Step(acc, t), front + [t])
  {
    var name := t.category.value;
    var names := CategoryNames(front);
    var acc' := acc + [Slice(name, 1)];
    assert Step(acc, t) == acc';
    assert name !in names by {
      forall i | 0 <= i < |names|
        ensures names[i] != name
      {
        assert acc[i].name == names[i];
      }
    }
    assert CategoryNames(front + [t]) == names + [name] by {
      NamesStep(front, t);
    }
    assert CountIn(front, name) == 0 by {
      CategoryNamesMembers(front, name);
    }
    AppendCounts(acc, front, t);
    assert Total(acc') == Categorized(front + [t]) by {
      TotalSnoc(acc, Slice(name, 1));
      CountStep(front, t, name);
    }
  }

  /** The counts after appending a fresh slice. */
  lemma AppendCounts(acc: seq<Slice>, front: seq<Task>, t: Task)
    requires Truthy(t.category) && CountIn(front, t.category.value) == 0
    requires forall i :: 0 <= i < |acc| ==> acc[i].value == CountIn(front, acc[i].name)
    requires forall i :: 0 <= i < |acc| ==> acc[i].name != t.category.value
    ensures var acc' := acc + [Slice(t.category.value, 1)];
      forall i :: 0 <= i < |acc'| ==> acc'[i].value == CountIn(front + [t], acc'[i].name)
  {
    var acc' := acc + [Slice(t.category.value, 1)];
    forall i | 0 <= i < |acc'|
      ensures acc'[i].value == CountIn(front + [t], acc'[i].name)
    {
      CountStep(front, t, acc'[i].name);
    }
  }

  /** One step of the reduce keeps the chart data exact. */
  lemma StepTallies(acc: seq<Slice>, front: seq<Task>, t: Task)
    requires Tallies(acc, front)
    ensures Tallies(Step(acc, t), front + [t])
  {
    if !Truthy(t.category) {
      StepSkip(acc, front, t);
    } else if FindSlice(acc, t.category.value) < |acc| {
      StepIncrement(acc, front, t);
    } else {
      StepAppend(acc, front, t);
    }
  }

  /**
    `categoryData`: one slice per distinct non-empty category name, in order of
    first appearance, whose value is the number of tasks in that category.
    Tasks without a category are skipped, so the values add up to the number
    of tasks that have one.
   */
  method CategoryData(tasks: seq<Task>) returns (acc: seq<Slice>)
    ensures |acc| == |CategoryNames(tasks)|
    ensures forall i :: 0 <= i < |acc| ==> acc[i].name == CategoryNames(tasks)[i]
    ensures forall i :: 0 <= i < |acc| ==> acc[i].value == CountIn(tasks, acc[i].name)
    ensures forall i :: 0 <= i < |acc| ==> acc[i].value >= 1 && acc[i].name != ""
    ensures Total(acc) == Categorized(tasks)
  {
    acc := [];
    for k := 0 to |tasks|
      invariant Tallies(acc, tasks[..k])
    {
      assert tasks[..k + 1] == tasks[..k] + [tasks[k]];
      StepTallies(acc, tasks[..k], tasks[k]);
      acc := Step(acc, tasks[k]);
    }
    assert tasks[..|tasks|] == tasks;
  }
}

=== FILE: service_worker.dfy ===
/**
  The offline worker: what install and activate leave in the Cache Storage,
  which response each fetch is answered with and what it writes, and the two
  notification handlers.

  Cache Storage is a list of named caches in creation order (the order
  `caches.keys()` reports and `caches.match` searches); each cache maps a
  request URL to a stored response. Requests are matched by URL alone. The
  network is a map from URL to the response a fetch resolves with; a URL
  missing from it is a fetch that rejects.
 */
module ServiceWorker {
  import opened Common

  const CacheName: string := "task-manager-cache-v1"
  const OfflineUrl: string := "/offline"

  /** The URLs the install step stores, the offline page first. */
  const PrecacheUrls: seq<string> := [
    OfflineUrl, "/", "/tasks", "/categories", "/reports", "/settings",
    "/manifest.json", "/icons/icon-192x192.png", "/icons/icon-512x512.png"
  ]

  datatype Response = Response(status: int, responseType: string, body: string)
  datatype NamedCache = NamedCache(name: string, entries: map<string, Response>)

  /** A fetch resolves with `net[url]` when the URL is in the map and rejects otherwise. */
  type Network = map<string, Response>

  /** Cache Storage never holds two caches with one name. */
  predicate UniqueNames(cs: seq<NamedCache>) {
    forall i, j :: 0 <= i < j < |cs| ==> cs[i].name != cs[j].name
  }

  predicate HasCache(cs: seq<NamedCache>, name: string) {
    exists i :: 0 <= i < |cs| && cs[i].name == name
  }

  /** Position of the cache called `name`, or `|cs|` when there is none. */
  function FindCache(cs: seq<NamedCache>, name: string): (i: nat)
    ensures i <= |cs|
    ensures i < |cs| ==> cs[i].name == name
    ensures forall k :: 0 <= k < i ==> cs[k].name != name
    decreases |cs|
  {
    if |cs| == 0 then 0
    else if cs[0].name == name then 0
    else 1 + FindCache(cs[1..], name)
  }

  /** `caches.open(name)`: the cache called `name`, created empty at the end when missing. */
  function Open(cs: seq<NamedCache>, name: string): (r: seq<NamedCache>)
    ensures HasCache(cs, name) ==> r == cs
    ensures !HasCache(cs, name) ==> r == cs + [NamedCache(name, map[])]
    ensures FindCache(r, name) < |r|
    ensures UniqueNames(cs) ==> UniqueNames(r)
    ensures forall n, u :: Lookup(r, n, u) == Lookup(cs, n, u)
  {
    if FindCache(cs, name) < |cs| then cs
    else
      var c := NamedCache(name, map[]);
      assert FindCache(cs + [c], name) == |cs| by {
        FindAfter(cs, c, name);
      }
      assert forall n, u :: Lookup(cs + [c], n, u) == Lookup(cs, n, u) by {
        forall n, u
          ensures Lookup(cs + [c], n, u) == Lookup(cs, n, u)
        {
          FindAfter(cs, c, n);
        }
      }
      cs + [c]
  }

  /** Appending a cache moves no existing one, and is found only when no earlier one matches. */
  lemma {:induction false} FindAfter(cs: seq<NamedCache>, c: NamedCache, name: string)
    ensures FindCache(cs, name) < |cs| ==> FindCache(cs + [c], name) == FindCache(cs, name)
    ensures FindCache(cs, name) == |cs| ==>
      FindCache(cs + [c], name) == if c.name == name then |cs| else |cs| + 1
    decreases |cs|
  {
    if |cs| > 0 {
      assert (cs + [c])[1..] == cs[1..] + [c];
      FindAfter(cs[1..], c, name);
    }
  }

  /** `cache.match(url)` on the cache called `name`. */
  function Lookup(cs: seq<NamedCache>, name: string, url: string): (r: Option<Response>)
    ensures r.Some? <==> HasCache(cs, name) && url in cs[FindCache(cs, name)].entries
    ensures r.Some? ==> r.value == cs[FindCache(cs, name)].entries[url]
  {
    var i := FindCache(cs, name);
    if i < |cs| && url in cs[i].entries then Some(cs[i].entries[url]) else None
  }

  /** `caches.match(url)`: the entry of the first cache, in creation order, that holds the URL. */
  function CachesMatch(cs: seq<NamedCache>, url: string): (r: Option<Response>)
    ensures r.None? <==> forall k :: 0 <= k < |cs| ==> url !in cs[k].entries
    ensures r.Some? ==>
      exists k :: 0 <= k < |cs| && url in cs[k].entries && r.value == cs[k].entries[url]
                  && forall m :: 0 <= m < k ==> url !in cs[m].entries
    decreases |cs|
  {
    if |cs| == 0 then None
    else if url in cs[0].entries then Some(cs[0].entries[url])
    else
      var r := CachesMatch(cs[1..], url);
      assert forall k :: 1 <= k < |cs| ==> cs[k] == cs[1..][k - 1];
      r
  }

  /** `caches.open(name).then(cache => cache.put(url, response))`. */
  function Put(cs: seq<NamedCache>, name: string, url: string, response: Response): (r: seq<NamedCache>)
    ensures Lookup(r, name, url) == Some(response)
    ensures forall n, u :: (n != name || u != url) ==> Lookup(r, n, u) == Lookup(Open(cs, name), n, u)
    ensures UniqueNames(cs) ==> UniqueNames(r)
    ensures |r| == |Open(cs, name)| && forall k :: 0 <= k < |r| ==> r[k].name == Open(cs, name)[k].name
  {
    var ready := Open(cs, name);
    var i := FindCache(ready, name);
    ReplaceEntries(ready, i, ready[i].entries[url := response]);
    ready[i := NamedCache(ready[i].name, ready[i].entries[url := response])]
  }

  /** Replacing the entries of one cache moves no cache, and changes the lookups
      of that cache only. */
  lemma ReplaceEntries(a: seq<NamedCache>, i: nat, e: map<string, Response>)
    requires i < |a|
    ensures var b := a[i := NamedCache(a[i].name, e)];
      && |b| == |a|
      && (forall k :: 0 <= k < |a| ==> b[k].name == a[k].name)
      && (forall n, u :: Lookup(b, n, u) ==
            if FindCache(a, n) == i then (if u in e then Some(e[u]) else None) else Lookup(a, n, u))
      && (UniqueNames(a) ==> UniqueNames(b))
  {
    var b := a[i := NamedCache(a[i].name, e)];
    forall n, u
      ensures Lookup(b, n, u) ==
        if FindCache(a, n) == i then (if u in e then Some(e[u]) else None) else Lookup(a, n, u)
    {
      SameNamesSameFind(a, b, n);
    }
  }

  /** Replacing contents without renaming moves no cache. */
  lemma {:induction false} SameNamesSameFind(a: seq<NamedCache>, b: seq<NamedCache>, name: string)
    requires |a| == |b| && forall k :: 0 <= k < |a| ==> a[k].name == b[k].name
    ensures FindCache(a, name) == FindCache(b, name)
    decreases |a|
  {
    if |a| > 0 && a[0].name != name {
      SameNamesSameFind(a[1..], b[1..], name);
    }
  }

  // ---------------------------------------------------------------- install

  /** What `cache.addAll` accepts: an ok status (200 to 299) other than 206 Partial Content. */
  predicate Storable(r: Response) {
    200 <= r.status <= 299 && r.status != 206
  }

  /** Every URL fetched and accepted: otherwise `addAll` rejects and stores nothing. */
  predicate AllFetched(urls: seq<string>, net: Network) {
    forall u :: u in urls ==> u in net && Storable(net[u])
  }

  /** The responses fetched for `urls`. */
  function Fetched(urls: seq<string>, net: Network): (m: map<string, Response>)
    ensures forall u :: u in m <==> u in urls && u in net
    ensures forall u :: u in m ==> m[u] == net[u]
  {
    map u | u in urls && u in net :: net[u]
  }

  datatype InstallResult = InstallResult(caches: seq<NamedCache>, installed: bool)

  /**
    The install step: open the cache `CacheName`, then store the precache list
    all-or-nothing. A failed `addAll` fails the install but the opened
    (possibly new, empty) cache stays.
   */
  function Install(cs: seq<NamedCache>, net: Network): (r: InstallResult)
    ensures r.installed <==> AllFetched(PrecacheUrls, net)
    ensures !r.installed ==> r.caches == Open(cs, CacheName)
    ensures r.installed ==> forall u :: u in PrecacheUrls ==> Lookup(r.caches, CacheName, u) == Some(net[u])
    ensures r.installed ==> forall n, u :: (n != CacheName || u !in PrecacheUrls) ==>
              Lookup(r.caches, n, u) == Lookup(Open(cs, CacheName), n, u)
    ensures UniqueNames(cs) ==> UniqueNames(r.caches)
  {
    var ready := Open(cs, CacheName);
    if !AllFetched(PrecacheUrls, net) then InstallResult(ready, false)
    else
      var i := FindCache(ready, CacheName);
      ReplaceEntries(ready, i, ready[i].entries + Fetched(PrecacheUrls, net));
      InstallResult(ready[i := NamedCache(ready[i].name, ready[i].entries + Fetched(PrecacheUrls, net))], true)
  }

  /** Installing again over the same network stores nothing new. */
  lemma InstallIdempotent(cs: seq<NamedCache>, net: Network)
    requires Install(cs, net).installed
    ensures Install(Install(cs, net).caches, net) == Install(cs, net)
  {
    var first := Install(cs, net).caches;
    var ready := Open(cs, CacheName);
    var i := FindCache(ready, CacheName);
    var f := Fetched(PrecacheUrls, net);
    assert first == ready[i := NamedCache(CacheName, ready[i].entries + f)];
    assert FindCache(first, CacheName) == i by {
      SameNamesSameFind(ready, first, CacheName);
    }
    assert Open(first, CacheName) == first;
    assert first[i].entries + f == first[i].entries;
  }

  // --------------------------------------------------------------- activate

  function IsCurrent(): NamedCache -> bool {
    (c: NamedCache) => c.name == CacheName
  }

  /** The activate step: every cache not called `CacheName` is deleted. */
  function Activate(cs: seq<NamedCache>): (r: seq<NamedCache>)
    ensures forall c :: c in r <==> c in cs && c.name == CacheName
  {
    Filter(cs, IsCurrent())
  }

  /** With unique names, activation leaves exactly the current cache, if there was one. */
  lemma {:induction false} ActivateKeepsCurrent(cs: seq<NamedCache>)
    requires UniqueNames(cs)
    ensures var i := FindCache(cs, CacheName);
      Activate(cs) == if i < |cs| then [cs[i]] else []
    decreases |cs|
  {
    if |cs| > 0 {
      var rest := cs[1..];
      assert cs == [cs[0]] + rest;
      FilterCons(cs[0], rest, IsCurrent());
      if cs[0].name == CacheName {
        forall c | c in rest
          ensures !IsCurrent()(c)
        {
          var k :| 0 <= k < |rest| && rest[k] == c;
          assert cs[k + 1] == c;
        }
        FilterNone(rest, IsCurrent());
      } else {
        ActivateKeepsCurrent(rest);
      }
    }
  }

  /** After activation `caches.match` and `cache.match` on the current cache agree,
      and the current cache keeps every entry it had. */
  lemma ActivateThenMatch(cs: seq<NamedCache>, url: string)
    requires UniqueNames(cs)
    ensures CachesMatch(Activate(cs), url) == Lookup(cs, CacheName, url)
    ensures Lookup(Activate(cs), CacheName, url) == Lookup(cs, CacheName, url)
  {
    ActivateKeepsCurrent(cs);
  }

  // ------------------------------------------------------------------ fetch

  datatype Request = Request(url: string, mode: string, destination: string)

  /** `event.preloadResponse`: no preload (resolves to nothing), a response, or a rejection. */
  datatype Preload = NoPreload | Preloaded(response: Response) | PreloadFailed

  /**
    How a fetch event ends: the response handed to `respondWith` (none when it
    resolves to nothing or rejects, which the page sees as a network error),
    the Cache Storage afterwards, and whether the worker called `fetch`.
   */
  datatype Served = Served(response: Option<Response>, caches: seq<NamedCache>, fetched: bool)

  predicate IsAsset(r: Request) {
    r.destination == "image" || r.destination == "style" || r.destination == "script"
  }

  /** The catch branch of a navigation: the current cache's entry for the URL, else its offline page. */
  function NavigateFallback(cs: seq<NamedCache>, url: string, fetched: bool): (r: Served)
    ensures r.caches == Open(cs, CacheName) && r.fetched == fetched
    ensures Lookup(cs, CacheName, url).Some? ==> r.response == Lookup(cs, CacheName, url)
    ensures Lookup(cs, CacheName, url).None? ==> r.response == Lookup(cs, CacheName, OfflineUrl)
  {
    var ready := Open(cs, CacheName);
    var hit := Lookup(ready, CacheName, url);
    if hit.Some? then Served(hit, ready, fetched)
    else Served(Lookup(ready, CacheName, OfflineUrl), ready, fetched)
  }

  /** A navigation: preload, then network, then the fallback. */
  function Navigate(cs: seq<NamedCache>, net: Network, preload: Preload, url: string): (r: Served)
    ensures preload.Preloaded? ==> r == Served(Some(preload.response), cs, false)
    ensures preload.NoPreload? && url in net ==> r == Served(Some(net[url]), cs, true)
    ensures preload.NoPreload? && url !in net ==> r == NavigateFallback(cs, url, true)
    ensures preload.PreloadFailed? ==> r == NavigateFallback(cs, url, false)
    ensures forall n, u :: Lookup(r.caches, n, u) == Lookup(cs, n, u)
  {
    match preload
    case Preloaded(p) => Served(Some(p), cs, false)
    case PreloadFailed => NavigateFallback(cs, url, false)
    case NoPreload =>
      if url in net then Served(Some(net[url]), cs, true)
      else NavigateFallback(cs, url, true)
  }

  /** Only a 200 response of type "basic" (same-origin) is written back. */
  predicate Keepable(r: Response) {
    r.status == 200 && r.responseType == "basic"
  }

  /** An asset: cache first across all caches, then network, storing what is keepable. */
  function Asset(cs: seq<NamedCache>, net: Network, url: string): (r: Served)
    ensures CachesMatch(cs, url).Some? ==> r == Served(CachesMatch(cs, url), cs, false)
    ensures CachesMatch(cs, url).None? ==> r.fetched
    ensures CachesMatch(cs, url).None? && url !in net ==> r == Served(None, cs, true)
    ensures CachesMatch(cs, url).None? && url in net ==>
              && r.response == Some(net[url])
              && (Keepable(net[url]) ==> r.caches == Put(cs, CacheName, url, net[url]))
              && (!Keepable(net[url]) ==> r.caches == cs)
  {
    var hit := CachesMatch(cs, url);
    if hit.Some? then Served(hit, cs, false)
    else if url !in net then Served(None, cs, true)
    else if !Keepable(net[url]) then Served(Some(net[url]), cs, true)
    else Served(Some(net[url]), Put(cs, CacheName, url, net[url]), true)
  }

  /** Any other request: network first, then `caches.match`; nothing is written. */
  function Other(cs: seq<NamedCache>, net: Network, url: string): (r: Served)
    ensures r.caches == cs && r.fetched
    ensures url in net ==> r.response == Some(net[url])
    ensures url !in net ==> r.response == CachesMatch(cs, url)
  {
    if url in net then Served(Some(net[url]), cs, true)
    else Served(CachesMatch(cs, url), cs, true)
  }

  /** The fetch handler: navigations, then assets, then everything else. */
  function HandleFetch(cs: seq<NamedCache>, net: Network, preload: Preload, req: Request): (r: Served)
    ensures req.mode == "navigate" ==> r == Navigate(cs, net, preload, req.url)
    ensures req.mode != "navigate" && IsAsset(req) ==> r == Asset(cs, net, req.url)
    ensures req.mode != "navigate" && !IsAsset(req) ==> r == Other(cs, net, req.url)
  {
    if req.mode == "navigate" then Navigate(cs, net, preload, req.url)
    else if IsAsset(req) then Asset(cs, net, req.url)
    else Other(cs, net, req.url)
  }

  /** A stored asset is served from the cache the next time, without a fetch. */
  lemma AssetCachedOnce(cs: seq<NamedCache>, net: Network, later: Network, url: string)
    requires UniqueNames(cs)
    requires CachesMatch(cs, url).None? && url in net && Keepable(net[url])
    ensures var first := Asset(cs, net, url);
      Asset(first.caches, later, url) == Served(Some(net[url]), first.caches, false)
  {
    var ready := Open(cs, CacheName);
    var i := FindCache(ready, CacheName);
    var after := Put(cs, CacheName, url, net[url]);
    assert after == ready[i := NamedCache(CacheName, ready[i].entries[url := net[url]])];
    forall k | 0 <= k < |after| && k != i
      ensures url !in after[k].entries
    {
      if k < |cs| {
        assert after[k] == cs[k];
      }
    }
    assert CachesMatch(after, url) == Some(net[url]);
  }

  /**
    Offline after a clean install: once install succeeded and activation ran,
    a navigation with no preload that cannot reach the network is answered with
    the page stored at install time when it was precached, and with the stored
    offline page otherwise (if the URL was never cached).
   */
  lemma OfflineAfterInstall(cs: seq<NamedCache>, net: Network, offline: Network, url: string)
    requires UniqueNames(cs) && Install(cs, net).installed
    requires url !in offline
    ensures var active := Activate(Install(cs, net).caches);
      var r := Navigate(active, offline, NoPreload, url);
      && r.fetched
      && (url in PrecacheUrls ==> r.response == Some(net[url]))
      && (Lookup(active, CacheName, url).None? ==> r.response == Some(net[OfflineUrl]))
  {
    var installed := Install(cs, net).caches;
    ActivateThenMatch(installed, url);
    ActivateThenMatch(installed, OfflineUrl);
    assert OfflineUrl in PrecacheUrls;
  }

  // ---------------------------------------------------------- notifications

  /** The push payload's fields, each possibly missing. */
  datatype PushPayload = PushPayload(title: Option<string>, body: Option<string>, url: Option<string>)

  /** What `event.data?.json()` sees: no data at all, data that is not JSON
      (parsing throws), or parsed JSON. A parsed `null`, or a value without the
      fields, reads as a payload whose fields are all missing. */
  datatype PushData = NoData | Malformed | Json(payload: PushPayload)

  datatype Notification = Notification(title: string, body: string, icon: string, badge: string, url: string)

  const AppIcon: string := "/icons/icon-192x192.png"

  /** The fields the handler reads: no data reads as `{}`. */
  function Fields(data: PushData): PushPayload
    requires !data.Malformed?
  {
    if data.Json? then data.payload else PushPayload(None, None, None)
  }

  /**
    The notification a push shows. Data that is not JSON makes the handler
    throw before `showNotification`, so nothing is shown; otherwise each
    missing or empty field takes its default.
   */
  function PushNotification(data: PushData): (n: Option<Notification>)
    ensures n.None? <==> data.Malformed?
    ensures n.Some? && data.Json? && Truthy(data.payload.title) ==> n.value.title == data.payload.title.value
    ensures n.Some? && !(data.Json? && Truthy(data.payload.title)) ==> n.value.title == "New Notification"
    ensures n.Some? && data.Json? && Truthy(data.payload.body) ==> n.value.body == data.payload.body.value
    ensures n.Some? && !(data.Json? && Truthy(data.payload.body)) ==>
              n.value.body == "You have a new task reminder"
    ensures n.Some? && data.Json? && Truthy(data.payload.url) ==> n.value.url == data.payload.url.value
    ensures n.Some? && !(data.Json? && Truthy(data.payload.url)) ==> n.value.url == "/"
    ensures n.Some? ==> n.value.icon == AppIcon && n.value.badge == AppIcon
  {
    if data.Malformed? then None
    else
      var p := Fields(data);
      Some(Notification(OrElse(p.title, "New Notification"), OrElse(p.body, "You have a new task reminder"),
                        AppIcon, AppIcon, OrElse(p.url, "/")))
  }

  /** Whatever the payload, a notification that is shown never has an empty
      title, body or target. */
  lemma NotificationNeverBlank(data: PushData)
    ensures var n := PushNotification(data);
      n.Some? ==> n.value.title != "" && n.value.body != "" && n.value.url != ""
  {
  }

  /** A window from `clients.matchAll({type: "window"})`; `focusable` is `"focus" in client`. */
  datatype WindowClient = WindowClient(url: string, focusable: bool)

  datatype ClickAction = Focus(index: nat) | OpenWindow(url: string) | NoAction

  predicate Targets(c: WindowClient, url: string) {
    c.url == url && c.focusable
  }

  /** Position of the first window showing `url`, or `|clients|`. */
  function FirstWindow(clients: seq<WindowClient>, url: string): (i: nat)
    ensures i <= |clients|
    ensures i < |clients| ==> Targets(clients[i], url)
    ensures forall k :: 0 <= k < i ==> !Targets(clients[k], url)
    decreases |clients|
  {
    if |clients| == 0 then 0
    else if Targets(clients[0], url) then 0
    else 1 + FirstWindow(clients[1..], url)
  }

  /**
    The click handler: focus the first open window already on the target URL;
    otherwise open one when the host can (`clients.openWindow` exists);
    otherwise do nothing.
   */
  function NotificationClick(clients: seq<WindowClient>, target: string, canOpen: bool): (r: ClickAction)
    ensures r.Focus? <==> exists k :: 0 <= k < |clients| && Targets(clients[k], target)
    ensures r.Focus? ==>
      && r.index < |clients| && Targets(clients[r.index], target)
      && forall k :: 0 <= k < r.index ==> !Targets(clients[k], target)
    ensures r.OpenWindow? ==> r.url == target && canOpen
    ensures r.NoAction? <==> !canOpen && forall k :: 0 <= k < |clients| ==> !Targets(clients[k], target)
  {
    var i := FirstWindow(clients, target);
    if i < |clients| then Focus(i)
    else if canOpen then OpenWindow(target)
    else NoAction
  }

  /** A click on a push notification goes to the push's URL, or to "/" without one. */
  lemma ClickOpensPushTarget(data: PushData, clients: seq<WindowClient>)
    ensures var n := PushNotification(data);
      n.Some? && (forall k :: 0 <= k < |clients| ==> clients[k].url != n.value.url) ==>
        NotificationClick(clients, n.value.url, true) ==
          OpenWindow(if data.Json? && Truthy(data.payload.url) then data.payload.url.value else "/")
  {
  }
}

=== FILE: settings_service.dfy ===
/**
  The settings repository: one record under the `"settings"` key, with a
  default that is returned outside a browser and persisted on first read.
 */
module SettingsService {
  import opened Common
  import opened LocalStore

  /** The default record both default branches build. */
  const DefaultSettings := Settings(
    notifications := true,
    emailNotifications := false,
    reminderTime := "30",
    defaultView := "list",
    theme := "system",
    summaryFrequency := "daily")

  /**
    `getSettings`: outside a browser the default record and no write; when the
    key has never been written, the default record, written back; otherwise
    the stored record.
   */
  function GetSettings(s: Store): (r: Outcome<Settings>)
    ensures r.Ok?
    ensures !s.browser ==> r.value == DefaultSettings && r.store == s
    ensures s.browser && s.settings.None? ==>
              r.value == DefaultSettings && r.store == s.(settings := Some(DefaultSettings))
    ensures s.browser && s.settings.Some? ==> r.value == s.settings.value && r.store == s
    ensures OnlySettingsChanged(s, r.store)
  {
    if !s.browser then Ok(DefaultSettings, s)
    else if s.settings.None? then Ok(DefaultSettings, s.(settings := Some(DefaultSettings)))
    else Ok(s.settings.value, s)
  }

  /** `saveSettings`: replaces the whole stored record and returns it. Outside a
      browser the write throws. */
  function SaveSettings(s: Store, settings: Settings): (r: Outcome<Settings>)
    ensures r.Ok? <==> s.browser
    ensures r.Threw? ==> r.store == s
    ensures r.Ok? ==> r.value == settings && r.store.settings == Some(settings)
    ensures OnlySettingsChanged(s, r.store)
  {
    if !s.browser then Threw(s)
    else Ok(settings, s.(settings := Some(settings)))
  }

  /** Reading after saving gives back the saved record, and writes nothing. */
  lemma SaveThenGet(s: Store, settings: Settings)
    requires s.browser
    ensures var saved := SaveSettings(s, settings).store;
      GetSettings(saved) == Ok(settings, saved)
  {
  }

  /** The second read after seeding returns the seeded record unchanged. */
  lemma SecondGetAfterSeeding(s: Store)
    requires s.browser && s.settings.None?
    ensures var first := GetSettings(s);
      GetSettings(first.store) == Ok(DefaultSettings, first.store)
  {
  }

  /** Whether or not storage is available, a store that has never held settings
      reads as the same default record. */
  lemma DefaultsAgree(s: Store)
    requires s.settings.None?
    ensures GetSettings(s).value == GetSettings(s.(browser := !s.browser)).value
  {
  }
}

=== FILE: task_list.dfy ===
/**
  The list view's pipeline: filter the stored tasks by the view's filter,
  sort them by due time, and keep at most `limit` of them; plus the local
  update made when a task's checkbox is toggled.
 */
module TaskList {
  import opened Common
  import opened TaskType
  import opened LocalStore
  import TaskService

  /** Non-decreasing due time. */
  predicate SortedByDue(s: seq<Task>) {
    forall i, j :: 0 <= i < j < |s| ==> s[i].dueDate <= s[j].dueDate
  }

  /** Inserts `x` before the first task due no earlier than it. */
  function InsertByDue(x: Task, s: seq<Task>): (r: seq<Task>)
    requires SortedByDue(s)
    ensures SortedByDue(r)
    ensures multiset(r) == multiset(s) + multiset{x}
    ensures |r| == |s| + 1
    ensures r[0] == x || (|s| > 0 && r[0] == s[0])
    decreases |s|
  {
    if |s| == 0 then [x]
    else if x.dueDate <= s[0].dueDate then [x] + s
    else
      var rest := InsertByDue(x, s[1..]);
      assert s == [s[0]] + s[1..];
      [s[0]] + rest
  }

  /**
    `sort((a, b) => due(a) - due(b))`: the tasks in non-decreasing due order.
    JavaScript's sort is stable, and so is this one: of the tasks due at the
    same time, the earlier-stored one comes first.
   */
  function SortByDue(s: seq<Task>): (r: seq<Task>)
    ensures SortedByDue(r)
    ensures multiset(r) == multiset(s)
    ensures |r| == |s|
    decreases |s|
  {
    if |s| == 0 then []
    else
      assert s == [s[0]] + s[1..];
      InsertByDue(s[0], SortByDue(s[1..]))
  }

  /** Tasks due exactly at time `k`. */
  function DueAt(k: int): Task -> bool {
    (t: Task) => t.dueDate == k
  }

  lemma {:induction false} InsertStable(x: Task, s: seq<Task>, k: int)
    requires SortedByDue(s)
    ensures Filter(InsertByDue(x, s), DueAt(k)) ==
      (if x.dueDate == k then [x] else []) + Filter(s, DueAt(k))
    decreases |s|
  {
    if |s| == 0 {
      FilterCons(x, [], DueAt(k));
      assert [x] + [] == [x];
    } else if x.dueDate <= s[0].dueDate {
      FilterCons(x, s, DueAt(k));
    } else {
      InsertStable(x, s[1..], k);
      assert InsertByDue(x, s) == [s[0]] + InsertByDue(x, s[1..]);
      InsertPastHead(x, s, InsertByDue(x, s[1..]), k);
    }
  }

  /** The step of `InsertStable` where `x` goes past the head: the head is due
      strictly before `x`, so at most one of the two is due at `k`. */
  lemma InsertPastHead(x: Task, s: seq<Task>, rest: seq<Task>, k: int)
    requires |s| > 0 && x.dueDate > s[0].dueDate
    requires Filter(rest, DueAt(k)) == (if x.dueDate == k then [x] else []) + Filter(s[1..], DueAt(k))
    ensures Filter([s[0]] + rest, DueAt(k)) == (if x.dueDate == k then [x] else []) + Filter(s, DueAt(k))
  {
    var tail := Filter(s[1..], DueAt(k));
    FilterCons(s[0], rest, DueAt(k));
    FilterCons(s[0], s[1..], DueAt(k));
    assert [s[0]] + s[1..] == s;
    if s[0].dueDate == k {
      assert x.dueDate != k;
      assert [] + tail == tail;
      assert Filter([s[0]] + rest, DueAt(k)) == [s[0]] + tail;
      assert Filter(s, DueAt(k)) == [s[0]] + tail;
      assert [] + ([s[0]] + tail) == [s[0]] + tail;
    } else {
      assert Filter([s[0]] + rest, DueAt(k)) == Filter(rest, DueAt(k));
      assert [] + tail == tail;
      assert Filter(s, DueAt(k)) == tail;
    }
  }

  /** Stability: for every due time, the tasks due then appear in the sorted list
      in the order they were stored. */
  lemma {:induction false} SortStable(s: seq<Task>, k: int)
    ensures Filter(SortByDue(s), DueAt(k)) == Filter(s, DueAt(k))
    decreases |s|
  {
    if |s| > 0 {
      SortStable(s[1..], k);
      InsertStable(s[0], SortByDue(s[1..]), k);
    }
  }

  function IsPending(): Task -> bool { (t: Task) => !t.completed }
  function IsCompleted(): Task -> bool { (t: Task) => t.completed }
  function DueOnDay(day: int): Task -> bool { (t: Task) => DayOf(t.dueDate) == day }

  /**
    The filter step: "today" keeps the tasks due on the local day of `now`,
    "pending" the uncompleted ones, "completed" the completed ones; any other
    value, including "all" and no filter, keeps every task.
   */
  function ApplyFilter(all: seq<Task>, filter: Option<string>, now: int): (r: seq<Task>)
    ensures forall t :: t in r ==> t in all
    ensures filter == Some("today") ==> forall t :: t in r <==> t in all && SameDay(t.dueDate, now)
    ensures filter == Some("pending") ==> forall t :: t in r <==> t in all && !t.completed
    ensures filter == Some("completed") ==> forall t :: t in r <==> t in all && t.completed
    ensures filter !in {Some("today"), Some("pending"), Some("completed")} ==> r == all
  {
    if filter == Some("today") then Filter(all, DueOnDay(DayOf(now)))
    else if filter == Some("pending") then Filter(all, IsPending())
    else if filter == Some("completed") then Filter(all, IsCompleted())
    else all
  }

  /** The filter keeps or drops each task on its own and keeps the kept ones in
      input order: filtering a concatenation filters each part, and a single
      task is kept exactly when it matches the filter. */
  lemma ApplyFilterKeepsOrder(a: seq<Task>, b: seq<Task>, t: Task, filter: Option<string>, now: int)
    ensures ApplyFilter(a + b, filter, now) == ApplyFilter(a, filter, now) + ApplyFilter(b, filter, now)
    ensures ApplyFilter([t], filter, now) == [t] || ApplyFilter([t], filter, now) == []
  {
    if filter == Some("today") {
      FilterConcat(a, b, DueOnDay(DayOf(now)));
    } else if filter == Some("pending") {
      FilterConcat(a, b, IsPending());
    } else if filter == Some("completed") {
      FilterConcat(a, b, IsCompleted());
    }
  }

  /** `s.slice(0, n)`: a negative end counts back from the end of the list. */
  function SliceTo(s: seq<Task>, n: int): (r: seq<Task>)
    ensures r <= s
    ensures n >= 0 ==> |r| == if n < |s| then n else |s|
    ensures n < 0 ==> |r| == if |s| + n > 0 then |s| + n else 0
  {
    var end := if n < 0 then (if |s| + n > 0 then |s| + n else 0) else (if n < |s| then n else |s|);
    s[..end]
  }

  /** `if (limit) tasks = tasks.slice(0, limit)`: an absent or zero limit keeps
      every task. */
  function ApplyLimit(s: seq<Task>, limit: Option<int>): (r: seq<Task>)
    ensures r <= s
    ensures limit.None? || limit.value == 0 ==> r == s
    ensures limit.Some? && limit.value > 0 ==> |r| == if limit.value < |s| then limit.value else |s|
  {
    if limit.Some? && limit.value != 0 then SliceTo(s, limit.value) else s
  }

  /** Keeping a prefix keeps the order. */
  lemma PrefixSorted(s: seq<Task>, r: seq<Task>)
    requires SortedByDue(s) && r <= s
    ensures SortedByDue(r)
  {
    assert forall i :: 0 <= i < |r| ==> r[i] == s[i];
  }

  /** `loadTasks`: filter, then sort by due time, then apply the limit. */
  function LoadTasks(all: seq<Task>, filter: Option<string>, limit: Option<int>, now: int): (r: seq<Task>)
    ensures r <= SortByDue(ApplyFilter(all, filter, now))
    ensures (limit.None? || limit == Some(0)) ==> r == SortByDue(ApplyFilter(all, filter, now))
    ensures limit.Some? && limit.value > 0 ==>
              |r| == if limit.value < |ApplyFilter(all, filter, now)| then limit.value else |ApplyFilter(all, filter, now)|
  {
    ApplyLimit(SortByDue(ApplyFilter(all, filter, now)), limit)
  }

  /** What the list view shows: tasks taken from the store that pass the filter,
      in due order, at most `limit` of them for a positive limit, and all of
      them when no limit applies. */
  lemma LoadTasksShape(all: seq<Task>, filter: Option<string>, limit: Option<int>, now: int)
    ensures var r := LoadTasks(all, filter, limit, now);
      && SortedByDue(r)
      && (forall t :: t in r ==> t in all)
      && (filter == Some("pending") ==> forall t :: t in r ==> !t.completed)
      && (filter == Some("completed") ==> forall t :: t in r ==> t.completed)
      && (filter == Some("today") ==> forall t :: t in r ==> SameDay(t.dueDate, now))
      && (limit.Some? && limit.value > 0 ==> |r| <= limit.value)
      && (limit.None? || limit.value == 0 ==>
            multiset(r) == multiset(ApplyFilter(all, filter, now)))
  {
    var f := ApplyFilter(all, filter, now);
    var sorted := SortByDue(f);
    var r := LoadTasks(all, filter, limit, now);
    PrefixSorted(sorted, r);
    forall t | t in r
      ensures t in f
    {
      assert t in multiset(sorted);
    }
  }

  /** The checkbox's local update: every task with the id gets the new
      completion flag; every other task is kept as it was. */
  function SetCompleted(tasks: seq<Task>, id: string, completed: bool): (r: seq<Task>)
    ensures |r| == |tasks|
    ensures forall i :: 0 <= i < |r| && tasks[i].id != id ==> r[i] == tasks[i]
    ensures forall i :: 0 <= i < |r| && tasks[i].id == id ==>
              r[i] == Merge(tasks[i], CompletedPatch(completed))
  {
    seq(|tasks|, i requires 0 <= i < |tasks| =>
      if tasks[i].id == id then tasks[i].(completed := completed) else tasks[i])
  }

  /**
    `handleTaskComplete`: sends the patch `{ completed }` to the repository and
    updates the list on screen. The repository patches only the first stored
    task with the id and the screen patches every shown one; on a store whose
    ids are unique the two agree.
   */
  function HandleTaskComplete(s: Store, shown: seq<Task>, id: string, completed: bool)
    : (r: (Store, seq<Task>))
    ensures OnlyTasksChanged(s, r.0)
    ensures !TaskService.HasId(TaskService.GetTasks(s), id) ==> r.0 == s
    ensures TaskService.HasId(TaskService.GetTasks(s), id) ==>
              TaskService.GetTask(r.0, id) == Some(TaskService.GetTask(s, id).value.(completed := completed))
    ensures forall other :: other != id ==> TaskService.GetTask(r.0, other) == TaskService.GetTask(s, other)
    ensures |TaskService.GetTasks(r.0)| == |TaskService.GetTasks(s)|
    ensures |r.1| == |shown|
    ensures forall i :: 0 <= i < |shown| ==>
              r.1[i] == (if shown[i].id == id then shown[i].(completed := completed) else shown[i])
  {
    TaskService.UpdateFrame(s, id, CompletedPatch(completed));
    (TaskService.UpdateTask(s, id, CompletedPatch(completed)).store, SetCompleted(shown, id, completed))
  }

  /** With unique ids, the store after the toggle holds exactly the list the
      screen would show if it displayed the whole store in stored order. */
  lemma ToggleAgreesWithStore(s: Store, id: string, completed: bool)
    requires TaskService.UniqueIds(TaskService.GetTasks(s))
    ensures var r := HandleTaskComplete(s, TaskService.GetTasks(s), id, completed);
      TaskService.GetTasks(r.0) == r.1
  {
    var ts := TaskService.GetTasks(s);
    var r := HandleTaskComplete(s, ts, id, completed);
    var u := TaskService.UpdateTask(s, id, CompletedPatch(completed));
    if u.value.Some? {
      var i := TaskService.FindIndex(ts, id).value;
      assert s.browser && s.tasks.Some?;
      assert TaskService.GetTasks(r.0) == ts[i := Merge(ts[i], CompletedPatch(completed))];
      forall j | 0 <= j < |ts| && j != i
        ensures ts[j].id != id
      {
      }
    } else {
      forall j | 0 <= j < |ts|
        ensures r.1[j] == ts[j]
      {
        assert !TaskService.HasId(ts, id);
      }
    }
  }

  /** With unique stored ids, a stored task is what `getTask` returns for its id. */
  lemma GetStored(s: Store, t: Task)
    requires TaskService.UniqueIds(TaskService.GetTasks(s)) && t in TaskService.GetTasks(s)
    ensures TaskService.GetTask(s, t.id) == Some(t)
  {
    var ts := TaskService.GetTasks(s);
    var k :| 0 <= k < |ts| && ts[k] == t;
    assert TaskService.HasId(ts, t.id);
  }

  /** Whatever list the screen shows (filtered, sorted, limited), as long as it
      is drawn from a store with unique ids, every task on screen after the
      toggle is what the store then returns for its id. */
  lemma ToggleShownAgrees(s: Store, shown: seq<Task>, id: string, completed: bool, i: nat)
    requires TaskService.UniqueIds(TaskService.GetTasks(s))
    requires forall t :: t in shown ==> t in TaskService.GetTasks(s)
    requires i < |shown|
    ensures var r := HandleTaskComplete(s, shown, id, completed);
      TaskService.GetTask(r.0, r.1[i].id) == Some(r.1[i])
  {
    assert shown[i] in shown;
    GetStored(s, shown[i]);
    if shown[i].id == id {
      assert TaskService.HasId(TaskService.GetTasks(s), id);
    }
  }

  /** Toggling a task twice to the same value is toggling it once. */
  lemma SetCompletedIdempotent(tasks: seq<Task>, id: string, completed: bool)
    ensures SetCompleted(SetCompleted(tasks, id, completed), id, completed) ==
      SetCompleted(tasks, id, completed)
  {
  }
}

=== FILE: task_service.dfy ===
/**
  The task repository: every call reads the whole `"tasks"` array, changes it
  in memory and writes the whole array back. Generated ids are parameters.
 */
module TaskService {
  import opened Common
  import opened TaskType
  import opened LocalStore

  /** No two tasks share an id. Nothing in the repository enforces this; it
      holds as long as every generated id is fresh. */
  predicate UniqueIds(ts: seq<Task>) {
    forall i, j :: 0 <= i < j < |ts| ==> ts[i].id != ts[j].id
  }

  /** The ids present in a task list. */
  predicate HasId(ts: seq<Task>, id: string) {
    exists i :: 0 <= i < |ts| && ts[i].id == id
  }

  /** `getTasks`: the stored array, or an empty one outside a browser or when
      the key has never been written. Nothing is written. */
  function GetTasks(s: Store): (r: seq<Task>)
    ensures !s.browser ==> r == []
    ensures s.browser && s.tasks.None? ==> r == []
    ensures s.browser && s.tasks.Some? ==> r == s.tasks.value
  {
    if s.browser && s.tasks.Some? then s.tasks.value else []
  }

  /** `findIndex` on the id: the first position holding that id, or none. */
  function FindIndex(ts: seq<Task>, id: string): (r: Option<nat>)
    ensures r.Some? ==> r.value < |ts| && ts[r.value].id == id
    ensures r.Some? ==> forall j :: 0 <= j < r.value ==> ts[j].id != id
    ensures r.None? <==> !HasId(ts, id)
    decreases |ts|
  {
    if |ts| == 0 then None
    else if ts[0].id == id then Some(0)
    else
      match FindIndex(ts[1..], id)
      case None => None
      case Some(i) => Some(i + 1)
  }

  /** `getTask`: the first stored task with the id, or null when there is none. */
  function GetTask(s: Store, id: string): (r: Option<Task>)
    ensures r.None? <==> !HasId(GetTasks(s), id)
    ensures r.Some? ==> r.value.id == id
    ensures r.Some? ==> (exists i :: 0 <= i < |GetTasks(s)| && GetTasks(s)[i] == r.value
                           && forall j :: 0 <= j < i ==> GetTasks(s)[j].id != id)
  {
    var ts := GetTasks(s);
    match FindIndex(ts, id)
    case None => None
    case Some(i) => Some(ts[i])
  }

  /**
    `createTask`: appends `{ id: newId, ...data }` to the stored list and
    returns it. Outside a browser the write to `localStorage` throws.
   */
  function CreateTask(s: Store, data: TaskData, newId: string): (r: Outcome<Task>)
    ensures r.Ok? <==> s.browser
    ensures r.Threw? ==> r.store == s
    ensures r.Ok? ==> r.value.id == newId && ToData(r.value) == data
    ensures r.Ok? ==> r.store.tasks == Some(GetTasks(s) + [r.value])
    ensures OnlyTasksChanged(s, r.store)
  {
    if !s.browser then Threw(s)
    else
      var t := WithId(newId, data);
      Ok(t, s.(tasks := Some(GetTasks(s) + [t])))
  }

  /**
    `updateTask`: when no stored task has the id, null and no write; otherwise
    the first task with the id is replaced by `{ ...old, ...patch }`, which is
    also the value returned. Never throws: outside a browser the list read is
    empty, so the id is not found.
   */
  function UpdateTask(s: Store, id: string, patch: TaskPatch): (r: Outcome<Option<Task>>)
    ensures r.Ok?
    ensures r.value.None? <==> !HasId(GetTasks(s), id)
    ensures r.value.None? ==> r.store == s
    ensures r.value.Some? ==>
              (exists i :: 0 <= i < |GetTasks(s)|
                 && GetTasks(s)[i].id == id
                 && (forall j :: 0 <= j < i ==> GetTasks(s)[j].id != id)
                 && r.value.value == Merge(GetTasks(s)[i], patch)
                 && r.store.tasks == Some(GetTasks(s)[i := r.value.value]))
    ensures OnlyTasksChanged(s, r.store)
  {
    var ts := GetTasks(s);
    match FindIndex(ts, id)
    case None => Ok(None, s)
    case Some(i) =>
      var m := Merge(ts[i], patch);
      Ok(Some(m), s.(tasks := Some(ts[i := m])))
  }

  /** The filter callback of the deletes: keeps records whose id differs. */
  function TaskIdIsNot(id: string): Task -> bool {
    (t: Task) => t.id != id
  }

  /**
    `deleteTask`: writes back the stored list without any task with the id and
    returns true, whether or not the id was present. Outside a browser the
    write throws.
   */
  function DeleteTask(s: Store, id: string): (r: Outcome<bool>)
    ensures r.Ok? <==> s.browser
    ensures r.Threw? ==> r.store == s
    ensures r.Ok? ==> r.value
    ensures r.Ok? ==>
              && r.store.tasks.Some?
              && (forall t :: t in r.store.tasks.value <==> t in GetTasks(s) && t.id != id)
    ensures OnlyTasksChanged(s, r.store)
  {
    if !s.browser then Threw(s)
    else Ok(true, s.(tasks := Some(Filter(GetTasks(s), TaskIdIsNot(id)))))
  }

  /** The first task with an id sits at the end of `ts + [t]` when no earlier task has it. */
  lemma FindAppended(ts: seq<Task>, t: Task)
    requires !HasId(ts, t.id)
    ensures FindIndex(ts + [t], t.id) == Some(|ts|)
  {
    assert (ts + [t])[|ts|].id == t.id;
  }

  /** Creating a task with a fresh id and looking that id up gives back the
      record built from the input fields. */
  lemma CreateThenGet(s: Store, data: TaskData, newId: string)
    requires s.browser
    requires !HasId(GetTasks(s), newId)
    ensures GetTask(CreateTask(s, data, newId).store, newId) == Some(WithId(newId, data))
  {
    var s' := CreateTask(s, data, newId).store;
    FindAppended(GetTasks(s), WithId(newId, data));
    assert GetTasks(s') == GetTasks(s) + [WithId(newId, data)];
  }

  /** A fresh id keeps the ids of the stored list unique. */
  lemma CreateKeepsIdsUnique(s: Store, data: TaskData, newId: string)
    requires s.browser
    requires UniqueIds(GetTasks(s)) && !HasId(GetTasks(s), newId)
    ensures UniqueIds(GetTasks(CreateTask(s, data, newId).store))
  {
    var ts := GetTasks(s);
    var ts' := GetTasks(CreateTask(s, data, newId).store);
    assert ts' == ts + [WithId(newId, data)];
    forall i, j | 0 <= i < j < |ts'|
      ensures ts'[i].id != ts'[j].id
    {
      if j == |ts| {
        assert ts'[i] == ts[i];
      } else {
        assert ts'[i] == ts[i] && ts'[j] == ts[j];
      }
    }
  }

  /** After an update that does not patch the id, looking the id up gives the
      returned record. */
  lemma UpdateReadsBack(s: Store, id: string, patch: TaskPatch)
    requires HasId(GetTasks(s), id) && patch.id.None?
    ensures var r := UpdateTask(s, id, patch);
      r.value.Some? && GetTask(r.store, id) == r.value
  {
    var ts := GetTasks(s);
    var r := UpdateTask(s, id, patch);
    var i := FindIndex(ts, id).value;
    assert s.browser && s.tasks.Some?;
    assert GetTasks(r.store) == ts[i := r.value.value];
    assert ts[i := r.value.value][i].id == id;
  }

  /** Two lists with the same ids position by position find every id at the same place. */
  lemma {:induction false} FindIndexSameIds(a: seq<Task>, b: seq<Task>, x: string)
    requires |a| == |b| && forall k :: 0 <= k < |a| ==> a[k].id == b[k].id
    ensures FindIndex(a, x) == FindIndex(b, x)
    decreases |a|
  {
    if |a| > 0 {
      FindIndexSameIds(a[1..], b[1..], x);
    }
  }

  /** After an update that does not patch the id, looking the id up gives the
      returned record; every other id reads as before. */
  lemma UpdateThenGet(s: Store, id: string, patch: TaskPatch, other: string)
    requires HasId(GetTasks(s), id)
    requires patch.id.None? && other != id
    ensures var r := UpdateTask(s, id, patch);
      && r.value.Some?
      && GetTask(r.store, id) == r.value
      && GetTask(r.store, other) == GetTask(s, other)
  {
    UpdateReadsBack(s, id, patch);
    var ts := GetTasks(s);
    var r := UpdateTask(s, id, patch);
    var i := FindIndex(ts, id).value;
    var ts' := ts[i := r.value.value];
    assert s.browser && s.tasks.Some?;
    assert GetTasks(r.store) == ts';
    FindIndexSameIds(ts, ts', other);
  }

  /** An update that does not patch the id changes only the task it found: the
      list keeps its length, the id reads back as the returned record, and every
      other id reads as before. An absent id leaves the store as it was. */
  lemma UpdateFrame(s: Store, id: string, patch: TaskPatch)
    requires patch.id.None?
    ensures var r := UpdateTask(s, id, patch);
      && |GetTasks(r.store)| == |GetTasks(s)|
      && (HasId(GetTasks(s), id) ==> GetTask(r.store, id) == r.value)
      && (forall other :: other != id ==> GetTask(r.store, other) == GetTask(s, other))
  {
    var r := UpdateTask(s, id, patch);
    if HasId(GetTasks(s), id) {
      var i := FindIndex(GetTasks(s), id).value;
      assert s.browser && s.tasks.Some?;
      assert GetTasks(r.store) == GetTasks(s)[i := r.value.value];
      UpdateReadsBack(s, id, patch);
      forall other | other != id
        ensures GetTask(r.store, other) == GetTask(s, other)
      {
        UpdateThenGet(s, id, patch, other);
      }
    }
  }

  /** Deleting twice stores what deleting once stores, and afterwards the id is gone. */
  lemma DeleteIdempotent(s: Store, id: string)
    ensures var once := DeleteTask(s, id).store;
      && DeleteTask(once, id).store == once
      && GetTask(once, id).None?
  {
    if s.browser {
      var once := DeleteTask(s, id).store;
      FilterIdempotent(GetTasks(s), TaskIdIsNot(id));
      assert GetTasks(once) == Filter(GetTasks(s), TaskIdIsNot(id));
    }
  }

  /** Deletion keeps the surviving tasks in their stored order: deleting from a
      list made of two parts deletes from each part. */
  lemma DeleteKeepsOrder(s: Store, id: string, front: seq<Task>, back: seq<Task>)
    requires s.browser && GetTasks(s) == front + back
    ensures DeleteTask(s, id).store.tasks ==
      Some(Filter(front, TaskIdIsNot(id)) + Filter(back, TaskIdIsNot(id)))
  {
    FilterConcat(front, back, TaskIdIsNot(id));
  }
}

=== FILE: task_type.dfy ===
/**
  The `Task` record of `types/task.ts`, the partial patch that `updateTask`
  spreads over it, and the day arithmetic the views use on its due date.

  Due dates are modelled as integer timestamps in local wall-clock
  milliseconds, so that "the local day of t" is plain floor division.
 */
module TaskType {
  import opened Common

  /** The priority enum of the declared type. */
  datatype Priority = High | Medium | Low

  function PriorityName(p: Priority): string {
    match p
    case High => "high"
    case Medium => "medium"
    case Low => "low"
  }

  /** Reads a stored priority string back into the enum; anything else is not a priority. */
  function ParsePriority(s: string): (r: Option<Priority>)
    ensures r.Some? <==> s in {"high", "medium", "low"}
    ensures r.Some? ==> PriorityName(r.value) == s
  {
    if s == "high" then Some(High)
    else if s == "medium" then Some(Medium)
    else if s == "low" then Some(Low)
    else None
  }

  /** The three names are the enum: parsing a name gives back the priority it names. */
  lemma PriorityRoundTrip(p: Priority)
    ensures ParsePriority(PriorityName(p)) == Some(p)
  {
  }

  /**
    A task. `id`, `title`, `dueDate` and `completed` are required; the other
    fields may be absent. `priority` and `recurrence` hold whatever string was
    stored: nothing at run time keeps `priority` inside the enum, and
    `recurrence` is an unconstrained string.
   */
  datatype Task = Task(
    id: string,
    title: string,
    description: Option<string>,
    dueDate: int,
    completed: bool,
    category: Option<string>,
    categoryColor: Option<string>,
    priority: Option<string>,
    recurrence: Option<string>,
    hasAttachments: Option<bool>)

  /** A task whose priority, when present, is one of the declared enum values. */
  predicate WellTyped(t: Task) {
    t.priority.None? || ParsePriority(t.priority.value).Some?
  }

  /** The fields of a task without its id (`Omit<Task, "id">`). */
  datatype TaskData = TaskData(
    title: string,
    description: Option<string>,
    dueDate: int,
    completed: bool,
    category: Option<string>,
    categoryColor: Option<string>,
    priority: Option<string>,
    recurrence: Option<string>,
    hasAttachments: Option<bool>)

  /** `{ id, ...data }`: the stored task built from a generated id and the given fields. */
  function WithId(id: string, d: TaskData): (t: Task)
    ensures t.id == id
    ensures ToData(t) == d
  {
    Task(id, d.title, d.description, d.dueDate, d.completed, d.category,
         d.categoryColor, d.priority, d.recurrence, d.hasAttachments)
  }

  /** The fields of a task other than its id. */
  function ToData(t: Task): TaskData {
    TaskData(t.title, t.description, t.dueDate, t.completed, t.category,
             t.categoryColor, t.priority, t.recurrence, t.hasAttachments)
  }

  /**
    A `Partial<Task>` patch. `Some(v)` means the key is present in the patch
    object. For the optional fields the value itself is optional: a key that is
    present with the value `undefined` is `Some(None)`, and the spread then
    clears the field.
   */
  datatype TaskPatch = TaskPatch(
    id: Option<string>,
    title: Option<string>,
    description: Option<Option<string>>,
    dueDate: Option<int>,
    completed: Option<bool>,
    category: Option<Option<string>>,
    categoryColor: Option<Option<string>>,
    priority: Option<Option<string>>,
    recurrence: Option<Option<string>>,
    hasAttachments: Option<Option<bool>>)

  /** The patch with no keys. */
  const EmptyPatch := TaskPatch(None, None, None, None, None, None, None, None, None, None)

  /** The patch `{ completed }` sent when a task's checkbox is toggled. */
  function CompletedPatch(c: bool): TaskPatch {
    EmptyPatch.(completed := Some(c))
  }

  function Pick<V>(patched: Option<V>, current: V): V {
    if patched.Some? then patched.value else current
  }

  /** `{ ...t, ...p }`: the shallow merge of a patch over a task. */
  function Merge(t: Task, p: TaskPatch): Task {
    Task(Pick(p.id, t.id), Pick(p.title, t.title), Pick(p.description, t.description),
         Pick(p.dueDate, t.dueDate), Pick(p.completed, t.completed), Pick(p.category, t.category),
         Pick(p.categoryColor, t.categoryColor), Pick(p.priority, t.priority),
         Pick(p.recurrence, t.recurrence), Pick(p.hasAttachments, t.hasAttachments))
  }

  /** Field by field: a key present in the patch takes the patch's value, every
      other field keeps the task's value. In particular the id survives unless
      the patch itself carries one. */
  lemma MergeFields(t: Task, p: TaskPatch)
    ensures var m := Merge(t, p);
      && (m.id == if p.id.Some? then p.id.value else t.id)
      && (m.title == if p.title.Some? then p.title.value else t.title)
      && (m.description == if p.description.Some? then p.description.value else t.description)
      && (m.dueDate == if p.dueDate.Some? then p.dueDate.value else t.dueDate)
      && (m.completed == if p.completed.Some? then p.completed.value else t.completed)
      && (m.category == if p.category.Some? then p.category.value else t.category)
      && (m.categoryColor == if p.categoryColor.Some? then p.categoryColor.value else t.categoryColor)
      && (m.priority == if p.priority.Some? then p.priority.value else t.priority)
      && (m.recurrence == if p.recurrence.Some? then p.recurrence.value else t.recurrence)
      && (m.hasAttachments == if p.hasAttachments.Some? then p.hasAttachments.value else t.hasAttachments)
  {
  }

  /** Merging the empty patch changes nothing, and merging the same patch twice
      is merging it once. */
  lemma MergeLaws(t: Task, p: TaskPatch)
    ensures Merge(t, EmptyPatch) == t
    ensures Merge(Merge(t, p), p) == Merge(t, p)
    ensures p.id.None? ==> Merge(t, p).id == t.id
  {
  }

  const MillisPerDay := 86400000

  /** The local calendar day of a timestamp: `setHours(0, 0, 0, 0)` rounds down to midnight. */
  function DayOf(t: int): int {
    t / MillisPerDay
  }

  /** `isSameDay`: two timestamps lie on the same day exactly when they are
      within the same midnight-to-midnight interval. */
  predicate SameDay(a: int, b: int) {
    DayOf(a) == DayOf(b)
  }

  lemma SameDayMeansSameMidnight(a: int, b: int)
    ensures SameDay(a, b) <==>
      MillisPerDay * DayOf(a) <= b < MillisPerDay * DayOf(a) + MillisPerDay
  {
  }

  /** The badge shown next to a task. */
  datatype BadgeVariant = Destructive | Default | Outline

  /**
    The priority badge: none when the priority is absent or empty (falsy),
    otherwise high is destructive, medium is default and anything else,
    including "low" and strings outside the enum, is outline.
   */
  function PriorityBadge(priority: Option<string>): (r: Option<BadgeVariant>)
    ensures r.None? <==> !Truthy(priority)
    ensures r == Some(Destructive) <==> priority == Some("high")
    ensures r == Some(Default) <==> priority == Some("medium")
    ensures r == Some(Outline) <==> Truthy(priority) && priority.value !in {"high", "medium"}
  {
    if !Truthy(priority) then None
    else if priority.value == "high" then Some(Destructive)
    else if priority.value == "medium" then Some(Default)
    else Some(Outline)
  }

  /** On a well-typed task the badge follows the enum. */
  lemma BadgeOfEnum(p: Priority)
    ensures PriorityBadge(Some(PriorityName(p))) ==
      Some(match p case High => Destructive case Medium => Default case Low => Outline)
  {
  }
}
